=== FILE: README.md ===
# salsocustom: a verified model of the SALSO search

This project models the search at the heart of salsocustom. The search
collapses an N x N matrix `p` of co-clustering probabilities into a single
partition of the N items. It maximises the Binder affinity: the sum of
`p(i, j) - Const_Binder` over pairs `i <= j`, diagonal included, that share a
label.

- `minimise_binder` gets a matrix `CI` whose rows are candidate labellings.
  It accumulates each row's affinity into a vector `Binder_f` over tiled,
  8-way-unrolled loops. It returns the first position of the largest entry,
  with the negated entry as the loss.
- `salso_cpp` runs `nPerm` random orderings of the items. For each one it:
  - labels the items one at a time in that order (sequential allocation);
  - re-chooses every label over at most `nScans` sweetening scans;
  - keeps the lowest-loss labelling, mapped back to the original item order.
- `randperm` fills the identity ordering and shuffles it.
- The header supplies the `salso_result` and `best_clustering_t` records, the
  tile size 64, the `ceild`/`floord` macros and the default arguments.

Modules:
- `SalsoHeader` (salso_header.dfy) models the header.
- `Permutation` (permutation.dfy) models `randperm` and the reordered matrix.
- `Binder` (binder.dfy) models `minimise_binder`.
- `Search` (search.dfy) models `salso_cpp`.
- `Relabel` (relabel.dfy) proves that undoing the ordering on the labels keeps their Binder affinity, for a symmetric matrix.

How the model represents the program:
- The matrices `p` and `CI` are read-only values (`seq<seq<real>>`, `seq<seq<nat>>`).
- `Binder_f`, the label vector `cl` and the best labelling found so far are arrays, updated in place as in the source.
- The Binder affinity is a left fold, `Accumulate`, over the comparisons of the naive double loop in row-major order (`Pairs`).
- The tiled loops are proved to compute exactly that fold: the same terms, in the same order.

The tiles are modelled as written. `ceild(iter - 1, 64)` vertical tiles of
candidate rows and `ceild(N - 1, 64)` horizontal tiles of items cover
indices `0 .. min(x - 1, 64 * tiles - 1)` (`Binder.Covered`).
- When `iter - 1` is a multiple of 64, the last candidate row is never scored
  and its entry of `Binder_f` stays 0. This happens with a single candidate,
  and whenever tryNumClust ≡ 1 (mod 64).
- When `N - 1` is a multiple of 64, item `N - 1` is never taken as `t3`. Only
  its diagonal term `pOrd(N - 1, N - 1) - Const_Binder` is missing
  (`Binder.CoveredAffinityOffset`). Within one `minimise_binder` call that
  term is the same for every candidate, so it does not change which one wins.
  It does change with the ordering: it is `p(itemOrder(N - 1), itemOrder(N - 1)) - Const_Binder`,
  so, when `p` is symmetric and every candidate is scored
  (`Search.EveryCandidateScored`: `2 <= min(maxClust, N) <= 64`), the loss
  `salso_cpp` returns is minus the Binder affinity of the returned labels on
  `p` plus that term (`Search.SalsoCpp`, `Search.UncoveredTerm`). With
  `maxClust == 1` the single candidate row is never scored and every scan ends at loss 0.
- The sweetening guarantees (the current labelling is always among the
  scored candidates, so a scan never lowers the affinity) are proved under
  `Search.EveryCandidateScored`: `2 <= min(maxClust, N) <= 64`.

What a search does is stated as relations between states, built up the way
the loops build them:
- `Search.IsAllocation`: every item took the first best label given the
  items before it.
- `Search.IsRechoice`: one step of a scan re-chooses item k's label as the
  first best candidate and moves `currNumClust` as src/salsocustom.cpp:63 does.
- `Search.IsScan`: a scan is the chain of N such steps.
- `Search.IsSweetening`: the scans run from the allocation, each from where
  the last one ended, until `nScans` scans ran or one did not lower the loss.
- `Search.TrialOutcome`: one ordering's result is the ordering
  `Shuffle(draws)`, the allocation of the reordered matrix, the sweetening
  from it, the labels where it ends and `prevScanBinder`.
Each relation admits exactly one outcome (`Search.TrialOutcomeUnique`), so
the contracts pin what the program computes.

## Model

| member | source | states |
|---|---|---|
| SalsoHeader.Ceild | src/salsocustom.h:26 | the result is the ceiling of n / d: d * r >= n, and r - 1 would fall short |
| SalsoHeader.Floord | src/salsocustom.h:27 | the result is the floor of n / d: d * r <= n < d * (r + 1) |
| SalsoHeader.NewSalsoResult | src/salsocustom.h:13-17 | `salso_result(N, L)` has N labels and loss L |
| SalsoHeader.Below | src/salsocustom.cpp:65-81 | only a finite loss is below another, and every finite loss is below +infinity |
| SalsoHeader.BelowIsStrictTotalOrder | src/salsocustom.cpp:81 | `<` on losses with +infinity on top is irreflexive, asymmetric, transitive and total |
| Permutation.Iota | src/salsocustom.cpp:170-171 | the identity fill: position i holds i, for each of the n positions |
| Permutation.IotaCount | src/salsocustom.cpp:171 | the identity fill holds each of 0..n-1 exactly once and nothing else |
| Permutation.PermutationInRange | src/salsocustom.cpp:166-174 | a sequence holding 0..n-1 once each names only items below n |
| Permutation.PermutationFacts | src/salsocustom.cpp:166-174 | a permutation of 0..n-1 is injective and names every item |
| Permutation.SwapKeepsMultiset | src/salsocustom.cpp:172 | one exchange of two entries keeps the entries |
| Permutation.ShuffleCount | src/salsocustom.cpp:171-172 | after any number of exchanges the ordering still holds each of 0..n-1 exactly once |
| Permutation.ShuffleIsPermutation | src/salsocustom.cpp:171-172 | the shuffled ordering is a permutation of 0..n-1, for any draws |
| Permutation.Swap | src/salsocustom.cpp:172 | one exchange of `std::shuffle`: positions i and j trade values and every other position keeps its value |
| Permutation.ShufflePrefix | src/salsocustom.cpp:172 | after the first i exchanges, positions i and later still hold their own index, since the exchange at step m never touches a later position |
| Permutation.Shuffle | src/salsocustom.cpp:172 | the ordering has one entry per item |
| Permutation.Randperm | src/salsocustom.cpp:166-174 | the identity fill followed by the exchanges returns `Shuffle(draws)`, a permutation of 0..N-1 |
| Permutation.Reordered | src/salsocustom.cpp:20 | `p.submat(order, order)`: entry (i, j) is p(order(i), order(j)) |
| Permutation.Leading | src/salsocustom.cpp:41 | `submat(0, 0, k, k)`: row i is the first k + 1 entries of row i |
| Binder.RowPairs | src/salsocustom.cpp:130-153 | the comparisons (t3, lo) .. (t3, hi - 1), in ascending t4 |
| Binder.Pairs | src/salsocustom.cpp:124-153 | the naive loop's comparisons are in range, with t3 < m and t3 <= t4 |
| Binder.PairsRowMajor | src/salsocustom.cpp:124-153 | the naive loop visits its comparisons in strictly row-major order, so none twice |
| Binder.PairsComplete | src/salsocustom.cpp:124-153 | the naive loop visits every pair t3 <= t4 with t3 < m |
| Binder.AccumulateAppend | src/salsocustom.cpp:124-153 | summing two runs of comparisons one after the other is summing their concatenation |
| Binder.AccumulateRowStep | src/salsocustom.cpp:148-153 | one more remainder comparison adds its one term |
| Binder.AccumulateEight | src/salsocustom.cpp:135-142 | the eight unrolled comparisons add their terms in ascending t4 |
| Binder.PartialAffinityIsFold | src/salsocustom.cpp:124-153 | summing item by item, each t3 against every t4 in [t3, N-1], is the single row-major fold over the pairs |
| Binder.AddIfSameCluster | src/salsocustom.cpp:150-152 | row t5 gains `p(t3, t4) - Const_Binder` when items t3 and t4 share its label, and nothing otherwise; other rows are unchanged |
| Binder.AddComparison | src/salsocustom.cpp:150-152 | every row of the vertical tile gains the term of (t3, t4); other rows are unchanged |
| Binder.AddEightToRow | src/salsocustom.cpp:135-142 | row t5 gains the eight terms of (t3, t4) .. (t3, t4 + 7); other rows are unchanged |
| Binder.AddEightComparisons | src/salsocustom.cpp:134-143 | every row of the vertical tile gains the eight terms, in order; other rows are unchanged |
| Binder.RowPairsSplit | src/salsocustom.cpp:130-153 | comparing t3 with [t3, hi) is comparing it with [t3, mid), then with [mid, hi) |
| Binder.CompareItem | src/salsocustom.cpp:130-153 | the 8-wide loop followed by the remainder loop adds every comparison (t3, t4), t4 in [t3, N-1], once each, in ascending order |
| Binder.HorizontalTile | src/salsocustom.cpp:124-155 | a horizontal tile of items [hLb, hUb] extends each row's partial sum from t3 < hLb to t3 <= hUb |
| Binder.TileBounds | src/salsocustom.cpp:124-127 | horizontal tile t starts below N - 1 and ends one before the next tile starts, or at N - 1 |
| Binder.HorizontalTileAt | src/salsocustom.cpp:124-155 | horizontal tile t2 extends each row's partial sum from t3 < 64 t2 to t3 < min(N, 64 (t2 + 1)) |
| Binder.VerticalTile | src/salsocustom.cpp:118-156 | after all horizontal tiles, each row of the vertical tile holds the affinity over the covered items |
| Binder.BinderScores | src/salsocustom.cpp:95-158 | `Binder_f(t)` is the covered affinity of row t (the affinity without item N - 1's diagonal term when N - 1 is a multiple of 64) for the rows the vertical tiles reach, and 0 for the last row when iter - 1 is a multiple of 64 |
| Binder.RowScore | src/salsocustom.cpp:95-158 | a candidate row's score is its covered affinity; the last row stays 0 when iter - 1 is a multiple of 64 |
| Binder.Scores | src/salsocustom.cpp:95-158 | one score per candidate row |
| Binder.Term | src/salsocustom.cpp:136-151 | one comparison adds `tmp(t3, t4)` when the row gives the two items one label, and nothing when it separates them |
| Binder.Covered | src/salsocustom.cpp:114-127 | the horizontal tiles reach n - 1 or n of the n items |
| Binder.CoveredAsWritten | src/salsocustom.cpp:105-127 | the tiles as written reach n - 1 indices when n - 1 is a multiple of 64, and all n otherwise |
| Binder.CoveredAffinityOffset | src/salsocustom.cpp:114-127 | the tiled affinity is the full Binder affinity less, at most, the last item's diagonal term, which does not depend on the labels |
| Binder.UnscoredRows | src/salsocustom.cpp:95-121 | a row's score is its affinity, except the last row when iter - 1 is a multiple of 64, which stays 0 |
| Binder.IndexMax | src/salsocustom.cpp:161 | `index_max` returns the first position of the largest entry |
| Binder.FirstMax | src/salsocustom.cpp:161 | the first position of the largest entry exists and is the only position that is one |
| Binder.MinimiseBinder | src/salsocustom.cpp:88-164 | the returned index is the first arg-max of the row scores, and the loss is minus that score |
| Binder.UnrolledGuard | src/salsocustom.cpp:132 | the intended guard holds exactly when t4 .. t4 + 7 are all columns, that is N >= 8 and t4 <= N - 8 |
| Binder.UnrolledGuardAsWritten | src/salsocustom.cpp:132 | the unsigned guard compares t4 with N - 8 + 2^64 when N < 8 and with N - 8 otherwise |
| Binder.GuardAsWrittenOverruns | src/salsocustom.cpp:132 | for 1 <= N < 8 the unsigned guard admits every t4 < N although t4 + 7 is past the last column |
| Binder.GuardsAgreeFromEight | src/salsocustom.cpp:132 | from N = 8 on, the guard as written and the intended one agree |
| Search.TryNum | src/salsocustom.cpp:37 | the number of candidate labels is curr + 1 capped by maxClust and by N, and equals one of the three |
| Search.CandidateRows | src/salsocustom.cpp:38-40 | tryNum candidate rows, candidate t equal to the labelling except at column k, which holds t |
| Search.BuildCandidates | src/salsocustom.cpp:38-40 | candidate t equals the labelling except at column k, which holds t |
| Search.ChooseLabel | src/salsocustom.cpp:37-43 | the new label is the first best candidate among tryNumClust = min(curr + 1, maxClust, N); newCurr becomes tryNumClust if the last candidate wins and stays curr otherwise |
| Search.ClusterCount | src/salsocustom.cpp:32-43 | the count bounds every label |
| Search.ClusterCountAttained | src/salsocustom.cpp:32-43 | the largest label, count - 1, is in use |
| Search.DenseSnoc | src/salsocustom.cpp:43 | opening a cluster uses the next label, so labels 0..currNumClust-1 stay in use |
| Search.AllocationScoresOfRow | src/salsocustom.cpp:38-41 | the candidates for item k depend only on the labels of items 0..k-1 |
| Search.AllocationStep | src/salsocustom.cpp:36-44 | placing item k with the first best candidate keeps the labels an allocation: the counter equals the number of labels, labels 0..counter-1 are all used, and every item took the first best label given the items before it |
| Search.PlaceItem | src/salsocustom.cpp:37-43 | one allocation step keeps the labels an allocation, now one item longer |
| Search.SequentialAllocation | src/salsocustom.cpp:30-44 | the labels are an allocation: item 0 gets label 0; currNumClust <= min(maxClust, N) counts the labels; all of 0..currNumClust-1 are used; each item's label is the first best candidate given the items before it |
| Search.SweetenStepNoWorse | src/salsocustom.cpp:56-63 | when every candidate is scored, the current label is a candidate, so re-choosing an item never lowers the affinity |
| Search.RechoiceInRange | src/salsocustom.cpp:57-63 | a scan step keeps the labels below currNumClust <= min(maxClust, N), raises currNumClust by at most one and changes only item k |
| Search.RechoiceUnique | src/salsocustom.cpp:57-63 | a scan step has one outcome: the first best candidate |
| Search.RechoiceScored | src/salsocustom.cpp:57-63 | when every candidate is scored, a scan step never lowers the affinity and its loss is minus the new affinity |
| Search.ScanPrefixSnoc | src/salsocustom.cpp:56-64 | one more step extends a partial scan |
| Search.ScanPrefixInRange | src/salsocustom.cpp:56-64 | every labelling a scan passes through is in range, and currNumClust never falls |
| Search.ScanPrefixScored | src/salsocustom.cpp:56-64 | when every candidate is scored, no step of a scan lowers the affinity, and each step's loss is minus the affinity after it |
| Search.StepAgrees | src/salsocustom.cpp:57-63 | two scans that agree before step j agree after it, loss included |
| Search.StepsAgree | src/salsocustom.cpp:56-64 | two scans from the same labelling agree on every step both took |
| Search.ScanUnique | src/salsocustom.cpp:56-64 | a scan is determined by the labelling it starts from |
| Search.ScanFacts | src/salsocustom.cpp:56-64 | a scan keeps the labels in range; when every candidate is scored it never lowers the affinity and its loss is minus the final affinity |
| Search.ScanTies | src/salsocustom.cpp:65-70 | when every candidate is scored, a scan whose loss is not below the previous one leaves the affinity unchanged |
| Search.Improving | src/salsocustom.cpp:65-70 | the number of scans that lowered `prevScanBinder` is at most the number run |
| Search.ScanLosses | src/salsocustom.cpp:65-66 | the losses `prevScanBinder` took are those of the improving scans, in order |
| Search.FirstScanImproves | src/salsocustom.cpp:54-66 | the first scan always lowers `prevScanBinder` from infinity |
| Search.StrictlyBelow | src/salsocustom.cpp:65-66 | each improving scan ends strictly below every earlier one |
| Search.SweeteningLosses | src/salsocustom.cpp:54-71 | `prevScanBinder` takes at most nScans values, strictly decreasing, at least one when nScans > 0, and ends at the last of them or at infinity |
| Search.SweeteningScored | src/salsocustom.cpp:54-71 | after any number of scans the labels are in range; when every candidate is scored the affinity has not fallen, the first scan's loss is at most minus the starting affinity, and the last scan's loss is minus the current affinity |
| Search.SweetenedOutcome | src/salsocustom.cpp:54-71 | the sweetening ends in range; when every candidate is scored, the affinity has not fallen, the first recorded loss is at most minus the allocation's affinity, and a finite `prevScanBinder` is minus the final affinity, also after a last scan that did not improve |
| Search.ScansAgree | src/salsocustom.cpp:55-64 | two runs of scans from the same labelling agree on every scan both ran |
| Search.ImprovesAgree | src/salsocustom.cpp:65 | whether a scan improved depends only on it and the scan before |
| Search.SweeteningUnique | src/salsocustom.cpp:54-71 | the scans the loop runs are determined by the labelling it starts from and nScans |
| Search.RechooseItem | src/salsocustom.cpp:57-63 | the array and counter after one step are the first best re-choice of item k, with its loss |
| Search.ScanItems | src/salsocustom.cpp:56-64 | the array ends where the scan of all N items from its old contents ends, with the last step's loss |
| Search.RunsSnoc | src/salsocustom.cpp:55-71 | one more scan from where the others ended extends the run of scans, and improves exactly when its loss is below the previous one |
| Search.Sweeten | src/salsocustom.cpp:54-71 | the scans run are a sweetening from the allocation: each a chain of first-best re-choices from where the last ended, stopping after nScans or after a scan that did not improve; `cl` and `currNumClust` end where the last scan ended; `prevScanBinder` is the last improving loss |
| Search.Unpermute | src/salsocustom.cpp:75 | `label(itemOrder(k)) == cl(k)` for every k |
| Search.Recorded | src/salsocustom.cpp:73-77 | the recorded trial, if any, is one of the trials run |
| Search.RecordedSnoc | src/salsocustom.cpp:73-77 | a new trial replaces the record exactly when its loss is strictly lower |
| Search.RecordedIsFirstMinimum | src/salsocustom.cpp:73-77 | the record is the first trial of least loss; there is none exactly when every loss is infinite |
| Search.Merge | src/salsocustom.cpp:79-82 | the critical section keeps the smaller loss, and the earlier result on ties |
| Search.TrialOutcomeFacts | src/salsocustom.cpp:19-71 | an ordering's outcome is a permutation with labels below min(maxClust, N) and a loss infinite exactly when nScans == 0; when every candidate is scored, the loss is minus the final covered affinity and at most minus the allocation's |
| Search.AllocationUnique | src/salsocustom.cpp:30-44 | sequential allocation has one outcome for a given ordered matrix |
| Search.TrialOutcomeUnique | src/salsocustom.cpp:19-71 | the outcome of an iteration is determined by its draws |
| Search.TrialLossOnItems | src/salsocustom.cpp:20 | for a symmetric `p` with every candidate scored, a trial's loss is minus the Binder affinity on `p` of its unpermuted labels, plus the uncovered diagonal term |
| Search.SearchOrdering | src/salsocustom.cpp:19-71 | one iteration returns the ordering `Shuffle(draws)`, the labels and the loss of the outcome `TrialOutcome` pins: allocation, then sweetening, of the reordered matrix |
| Search.KeepIfBetter | src/salsocustom.cpp:73-77 | the partial result takes the trial's unpermuted labels exactly when its loss is strictly below, so it holds the record |
| Search.RecordedFacts | src/salsocustom.cpp:73-77 | the recorded trial's unpermuted labels are below min(maxClust, N); on a symmetric `p` with every candidate scored, its loss is minus their Binder affinity plus the uncovered term |
| Search.SalsoOutcome | src/salsocustom.cpp:73-84 | the returned loss is infinite iff nScans == 0 or nPerm == 0; a finite result's labels are in range and its loss is minus their Binder affinity on `p` plus the uncovered term |
| Search.SalsoCpp | src/salsocustom.cpp:3-85 | every trial is the outcome its draws determine; the result is the first best trial, with the ordering undone on its labels; its loss is infinite iff nScans == 0 or nPerm == 0; on a symmetric `p` with every candidate scored, the loss is minus the Binder affinity of the returned labels plus the uncovered term |
| Relabel.RenamedTerm | src/salsocustom.cpp:20 | comparing positions i and j of the reordered matrix adds what comparing items order(i) and order(j) adds on a symmetric `p` |
| Relabel.RenamedTerms | src/salsocustom.cpp:20 | a run of comparisons on the reordered matrix sums as the renamed run on `p` |
| Relabel.AccumulatePermuted | src/salsocustom.cpp:124-153 | the sum of a run of terms does not depend on their order |
| Relabel.AllPairs | src/salsocustom.cpp:124-153 | the naive loop compares each pair t3 <= t4 once, and only those |
| Relabel.PermutationBijective | src/salsocustom.cpp:166-174 | a permutation is a bijection on the positions |
| Relabel.RenamedDistinct | src/salsocustom.cpp:20 | renaming by a permutation sends different pairs to different pairs |
| Relabel.RenamedCovers | src/salsocustom.cpp:20 | renaming by a permutation reaches every pair t3 <= t4, and only those |
| Relabel.RenamedPairs | src/salsocustom.cpp:20 | renaming by a permutation maps the pairs t3 <= t4 one to one onto themselves |
| Relabel.RelabelledAffinity | src/salsocustom.cpp:20 | on a symmetric `p`, the Binder affinity of the labels on `p.submat(itemOrder, itemOrder)` equals that of the unpermuted labels on `p` |

## Left out

- Floating point: the entries of `p`, `Binder_f` and the losses are reals, so rounding, and its effect on ties between scores, is not modelled. `INFINITY` is the `Loss` value `Infinite`.
- The `ceild`/`floord` macros divide in double precision and round; they are modelled as exact integer ceiling and floor. The two agree for every count below 2^53.
- OpenMP: the team of threads, the `omp for` split of the orderings and the `simd` pragmas are not modelled. The loops run in order on one thread. The critical section is `Search.Merge`, applied once.
- `currHorizTileLb` and `currHorizTileUb` are missing from the `private` list at src/salsocustom.cpp:116. This data race exists only with several threads, so it is out of this model.
- The random source (`std::random_device`, `std::mt19937`, `std::shuffle`) is replaced by the indices a Fisher-Yates shuffle draws, passed in as `draws`. The model does not state that every ordering is equally likely.
- Armadillo's `submat`, `repmat` and `index_max` are modelled by their contracts on sequences and arrays.
- `maxClust == 0` is excluded by a precondition. The wrap of `iter - 1` it would cause at src/salsocustom.cpp:105 is not modelled. An empty matrix (N == 0) is excluded too.
- `salso_result(N, L)` leaves its label vector's contents unspecified; the model fills it with zeros. Only length and loss are stated.
- Search.SweetenedOutcome: the tie between the scan losses and the affinity of the labels, and the fact that sweetening never lowers the affinity, are stated only under `EveryCandidateScored`. Without it the score of an unscored candidate is 0, which is not the affinity of that labelling.
- Search.SalsoCpp: the loss is tied to the Binder affinity on `p` only for a symmetric `p`, and only when `EveryCandidateScored`, i.e. 2 <= min(maxClust, N) <= 64. For an asymmetric `p` the reordered matrix compares each pair in the other direction for some orderings; otherwise some candidate rows stay at 0 and the loss need not be an affinity.
- `salso_cpp` is stated to return the best of the orderings it drew. Nothing is said about orderings it did not draw.
- src/salsocustom_R.cpp is an R marshalling layer, and it calls a function defined elsewhere. It is not part of this model.
- src/debug.h and src/debug.cpp are diagnostic output. They are not part of this model.

## Findings

| source | as written | input that shows it | evidently intended | confidence | as-written member | corrected member |
|---|---|---|---|---|---|---|
| src/salsocustom.cpp:132 | `t4 <= N - 1 - 7` is evaluated in unsigned `arma::uword`; for N < 8 it wraps to nearly 2^64 | N = 4, t3 = t4 = 0: the guard holds and the body reads `CI(t5, 4)` .. `CI(t5, 7)`, past the last column 3 | enter the 8-wide body only while t4 + 7 <= N - 1 | high, not executed | Binder.GuardAsWrittenOverruns | Binder.CompareItem |

=== FILE: binder.dfy ===
// minimise_binder: score every candidate labelling (a row of CI) by its
// Binder affinity, the sum over compared item pairs (t3, t4), t3 <= t4,
// that share a label, of p(t3, t4) - Const_Binder; return the first row
// with the largest score and the negated score as its loss.
//
// The scores are specified by a left fold over the pairs in the order the
// naive double loop visits them; the tiled, 8-way unrolled loop is proved
// to perform exactly that fold on every row it covers.

module Binder {
  import opened SalsoHeader

  type Matrix = seq<seq<real>>
  type Pair = (nat, nat)

  predicate IsSquare(p: Matrix, n: nat)
  {
    |p| == n && forall i :: 0 <= i < n ==> |p[i]| == n
  }

  /** Every candidate row labels the same n items. */
  predicate IsLabelMatrix(ci: seq<seq<nat>>, n: nat)
  {
    forall t :: 0 <= t < |ci| ==> |ci[t]| == n
  }

  /** The shapes minimise_binder is called with: at least one candidate, at least one item. */
  predicate WellShaped(p: Matrix, ci: seq<seq<nat>>)
  {
    |p| >= 1 && IsSquare(p, |p|) && |ci| >= 1 && IsLabelMatrix(ci, |p|)
  }

  predicate PairsWithin(ps: seq<Pair>, n: nat)
  {
    forall i :: 0 <= i < |ps| ==> ps[i].0 < n && ps[i].1 < n
  }

  /** What comparing items q.0 and q.1 adds to a row's score: tmp(q.0, q.1) if the row gives them one label. */
  function Term(p: Matrix, row: seq<nat>, c: real, q: Pair): (r: real)
    requires IsSquare(p, |row|) && q.0 < |row| && q.1 < |row|
    ensures r != 0.0 ==> row[q.0] == row[q.1]
    ensures row[q.0] == row[q.1] ==> r == p[q.0][q.1] - c
  {
    if row[q.1] == row[q.0] then p[q.0][q.1] - c else 0.0
  }

  /** acc with the terms of ps added to it one at a time, first to last. */
  function Accumulate(acc: real, p: Matrix, row: seq<nat>, c: real, ps: seq<Pair>): real
    requires IsSquare(p, |row|) && PairsWithin(ps, |row|)
    decreases |ps|
  {
    if ps == [] then acc
    else Accumulate(acc, p, row, c, ps[..|ps| - 1]) + Term(p, row, c, ps[|ps| - 1])
  }

  /** The comparisons (t3, lo), (t3, lo + 1), ..., (t3, hi - 1). */
  function RowPairs(t3: nat, lo: nat, hi: nat): (r: seq<Pair>)
    requires lo <= hi
    ensures |r| == hi - lo
    ensures forall i :: 0 <= i < |r| ==> r[i] == (t3, lo + i)
  {
    seq(hi - lo, i => (t3, lo + i))
  }

  /** The comparisons of the naive double loop: t3 over [0, m), and for each t3, t4 over [t3, n). */
  function Pairs(m: nat, n: nat): (r: seq<Pair>)
    requires m <= n
    ensures PairsWithin(r, n)
    ensures forall i :: 0 <= i < |r| ==> r[i].0 < m && r[i].0 <= r[i].1
    decreases m
  {
    if m == 0 then [] else Pairs(m - 1, n) + RowPairs(m - 1, m - 1, n)
  }

  /** The row-major order on comparisons. */
  predicate PairBefore(a: Pair, b: Pair)
  {
    a.0 < b.0 || (a.0 == b.0 && a.1 < b.1)
  }

  /** The naive loop visits its comparisons in strictly row-major order, so none twice. */
  lemma {:induction false} PairsRowMajor(m: nat, n: nat)
    requires m <= n
    ensures forall i, j :: 0 <= i < j < |Pairs(m, n)| ==> PairBefore(Pairs(m, n)[i], Pairs(m, n)[j])
  {
    if m > 0 {
      PairsRowMajor(m - 1, n);
      var prev := Pairs(m - 1, n);
      var row := RowPairs(m - 1, m - 1, n);
      var all := Pairs(m, n);
      assert all == prev + row;
      forall i, j | 0 <= i < j < |all|
        ensures PairBefore(all[i], all[j])
      {
        if j < |prev| {
          assert all[i] == prev[i] && all[j] == prev[j];
        } else if i < |prev| {
          assert all[i] == prev[i] && all[j] == row[j - |prev|];
        } else {
          assert all[i] == row[i - |prev|] && all[j] == row[j - |prev|];
        }
      }
    }
  }

  /** The naive loop visits every pair t3 <= t4 with t3 < m. */
  lemma {:induction false} PairsComplete(m: nat, n: nat)
    requires m <= n
    ensures forall a: nat, b: nat :: a < m && a <= b < n ==> (a, b) in Pairs(m, n)
  {
    if m > 0 {
      PairsComplete(m - 1, n);
      var prev := Pairs(m - 1, n);
      var row := RowPairs(m - 1, m - 1, n);
      assert Pairs(m, n) == prev + row;
      forall a: nat, b: nat | a < m && a <= b < n
        ensures (a, b) in Pairs(m, n)
      {
        if a < m - 1 {
          assert (a, b) in prev;
        } else {
          assert row[b - (m - 1)] == (a, b);
        }
      }
    }
  }

  /** How many of the indices 0..n-1 the tiles as written reach: ceild(n - 1, 64) tiles, each clipped at n - 1. */
  function Covered(n: nat): (r: nat)
    requires n >= 1
    ensures n - 1 <= r <= n
  {
    Min(n, TileSize * Ceild(n - 1, TileSize))
  }

  /** As written, the tiles miss exactly the last index when n - 1 is a multiple of the tile size. */
  lemma CoveredAsWritten(n: nat)
    requires n >= 1
    ensures Covered(n) == if (n - 1) % TileSize == 0 then n - 1 else n
  {
    var r := Ceild(n - 1, TileSize);
    if (n - 1) % TileSize == 0 {
      var q := (n - 1) / TileSize;
      assert n - 1 == TileSize * q;
      assert r == q;
    } else {
      assert TileSize * r != n - 1;
    }
  }

  /**
   * What the tiles as written leave out of an item affinity: at most the
   * diagonal term of the last item. For one matrix that term is the same
   * for every labelling, so within one call the order of the candidates is
   * that of the full Binder affinity; it changes with the ordering of the items.
   */
  lemma CoveredAffinityOffset(p: Matrix, row: seq<nat>, c: real)
    requires |row| >= 1 && IsSquare(p, |row|)
    ensures var n := |row|;
      CoveredAffinity(p, row, c)
        == BinderAffinity(p, row, c) - (if (n - 1) % TileSize == 0 then p[n - 1][n - 1] - c else 0.0)
  {
    var n := |row|;
    CoveredAsWritten(n);
    PartialAffinityIsFold(p, row, c, n);
    if (n - 1) % TileSize == 0 {
      var acc := PartialAffinity(p, row, c, n - 1);
      assert RowPairs(n - 1, n - 1, n) == [(n - 1, n - 1)];
      assert Accumulate(acc, p, row, c, [(n - 1, n - 1)]) == acc + Term(p, row, c, (n - 1, n - 1));
    }
  }

  /** The naive double loop's sum restricted to t3 < m: item by item, each compared with every t4 in [t3, n). */
  function PartialAffinity(p: Matrix, row: seq<nat>, c: real, m: nat): real
    requires IsSquare(p, |row|) && m <= |row|
    decreases m
  {
    if m == 0 then 0.0
    else Accumulate(PartialAffinity(p, row, c, m - 1), p, row, c, RowPairs(m - 1, m - 1, |row|))
  }

  /** Item by item is the single fold over the row-major comparisons. */
  lemma {:induction false} PartialAffinityIsFold(p: Matrix, row: seq<nat>, c: real, m: nat)
    requires IsSquare(p, |row|) && m <= |row|
    ensures PartialAffinity(p, row, c, m) == Accumulate(0.0, p, row, c, Pairs(m, |row|))
  {
    if m > 0 {
      PartialAffinityIsFold(p, row, c, m - 1);
      AccumulateAppend(0.0, p, row, c, Pairs(m - 1, |row|), RowPairs(m - 1, m - 1, |row|));
    }
  }

  /** The affinity of a labelling as the tiled loop computes it: the naive fold over the covered t3. */
  function CoveredAffinity(p: Matrix, row: seq<nat>, c: real): real
    requires |row| >= 1 && IsSquare(p, |row|)
  {
    PartialAffinity(p, row, c, Covered(|row|))
  }

  /** The Binder affinity of a labelling: the naive double loop over all t3 <= t4. */
  function BinderAffinity(p: Matrix, row: seq<nat>, c: real): real
    requires IsSquare(p, |row|)
  {
    Accumulate(0.0, p, row, c, Pairs(|row|, |row|))
  }

  /** The score minimise_binder leaves in Binder_f(t) for candidate row t. */
  function RowScore(p: Matrix, ci: seq<seq<nat>>, c: real, t: nat): (r: real)
    requires WellShaped(p, ci) && t < |ci|
    ensures t < |ci| - 1 || (|ci| - 1) % TileSize != 0 ==> r == CoveredAffinity(p, ci[t], c)
    ensures t == |ci| - 1 && (|ci| - 1) % TileSize == 0 ==> r == 0.0
  {
    CoveredAsWritten(|ci|);
    if t < Covered(|ci|) then CoveredAffinity(p, ci[t], c) else 0.0
  }

  /** The whole vector Binder_f. */
  function Scores(p: Matrix, ci: seq<seq<nat>>, c: real): (s: seq<real>)
    requires WellShaped(p, ci)
    ensures |s| == |ci|
  {
    seq(|ci|, t requires 0 <= t < |ci| => RowScore(p, ci, c, t))
  }

  /**
   * The rows the vertical tiles as written leave at zero: the last row when
   * iter - 1 is a multiple of 64. With a single candidate that is the only
   * row; in general it is the last candidate row whenever tryNumClust is
   * 1 more than a multiple of 64.
   */
  lemma UnscoredRows(p: Matrix, ci: seq<seq<nat>>, c: real, t: nat)
    requires WellShaped(p, ci) && t < |ci|
    ensures Scores(p, ci, c)[t] == 0.0 || Scores(p, ci, c)[t] == CoveredAffinity(p, ci[t], c)
    ensures t == |ci| - 1 && (|ci| - 1) % TileSize == 0 ==> Scores(p, ci, c)[t] == 0.0
    ensures (t < |ci| - 1 || (|ci| - 1) % TileSize != 0) ==> Scores(p, ci, c)[t] == CoveredAffinity(p, ci[t], c)
  {
    CoveredAsWritten(|ci|);
  }

  /** i is the first position of the largest entry of s (Armadillo's index_max). */
  predicate IsFirstMax(s: seq<real>, i: nat)
  {
    && i < |s|
    && (forall j :: 0 <= j < |s| ==> s[j] <= s[i])
    && (forall j :: 0 <= j < i ==> s[j] < s[i])
  }

  /** The first position of the largest entry, scanning left to right; the only one IsFirstMax admits. */
  function FirstMax(s: seq<real>): (r: nat)
    requires |s| >= 1
    ensures IsFirstMax(s, r)
    ensures forall i :: IsFirstMax(s, i) ==> i == r
    decreases |s|
  {
    if |s| == 1 then 0
    else
      var front := s[..|s| - 1];
      var i := FirstMax(front);
      assert forall j :: 0 <= j < |front| ==> front[j] == s[j];
      if s[|s| - 1] > s[i] then |s| - 1 else i
  }

  lemma {:induction false} AccumulateAppend(acc: real, p: Matrix, row: seq<nat>, c: real, ps: seq<Pair>, qs: seq<Pair>)
    requires IsSquare(p, |row|) && PairsWithin(ps, |row|) && PairsWithin(qs, |row|)
    ensures PairsWithin(ps + qs, |row|)
    ensures Accumulate(acc, p, row, c, ps + qs) == Accumulate(Accumulate(acc, p, row, c, ps), p, row, c, qs)
    decreases |qs|
  {
    assert PairsWithin(ps + qs, |row|) by {
      forall i | 0 <= i < |ps + qs|
        ensures (ps + qs)[i].0 < |row| && (ps + qs)[i].1 < |row|
      {
        if i >= |ps| {
          assert (ps + qs)[i] == qs[i - |ps|];
        }
      }
    }
    if qs == [] {
      assert ps + qs == ps;
    } else {
      var front := qs[..|qs| - 1];
      assert (ps + qs)[..|ps + qs| - 1] == ps + front;
      assert (ps + qs)[|ps + qs| - 1] == qs[|qs| - 1];
      AccumulateAppend(acc, p, row, c, ps, front);
    }
  }

  lemma AccumulateRowStep(acc: real, p: Matrix, row: seq<nat>, c: real, t3: nat, lo: nat, hi: nat)
    requires IsSquare(p, |row|) && t3 < |row| && lo <= hi < |row|
    ensures Accumulate(acc, p, row, c, RowPairs(t3, lo, hi + 1))
         == Accumulate(acc, p, row, c, RowPairs(t3, lo, hi)) + Term(p, row, c, (t3, hi))
  {
    assert RowPairs(t3, lo, hi + 1)[..hi - lo] == RowPairs(t3, lo, hi);
  }

  /** Eight consecutive comparisons, added in ascending t4. */
  lemma AccumulateEight(acc: real, p: Matrix, row: seq<nat>, c: real, t3: nat, t4: nat)
    requires IsSquare(p, |row|) && t3 < |row| && t4 + 8 <= |row|
    ensures Accumulate(acc, p, row, c, RowPairs(t3, t4, t4 + 8))
         == acc + Term(p, row, c, (t3, t4)) + Term(p, row, c, (t3, t4 + 1))
                + Term(p, row, c, (t3, t4 + 2)) + Term(p, row, c, (t3, t4 + 3))
                + Term(p, row, c, (t3, t4 + 4)) + Term(p, row, c, (t3, t4 + 5))
                + Term(p, row, c, (t3, t4 + 6)) + Term(p, row, c, (t3, t4 + 7))
  {
    assert RowPairs(t3, t4, t4) == [];
    AccumulateRowStep(acc, p, row, c, t3, t4, t4);
    AccumulateRowStep(acc, p, row, c, t3, t4, t4 + 1);
    AccumulateRowStep(acc, p, row, c, t3, t4, t4 + 2);
    AccumulateRowStep(acc, p, row, c, t3, t4, t4 + 3);
    AccumulateRowStep(acc, p, row, c, t3, t4, t4 + 4);
    AccumulateRowStep(acc, p, row, c, t3, t4, t4 + 5);
    AccumulateRowStep(acc, p, row, c, t3, t4, t4 + 6);
    AccumulateRowStep(acc, p, row, c, t3, t4, t4 + 7);
  }

  /** One statement of the innermost loops: `if (CI(t5, t4) == CI(t5, t3)) Binder_f(t5) += tmp(t3, t4)`. */
  method AddIfSameCluster(bf: array<real>, p: Matrix, ci: seq<seq<nat>>, c: real, t3: nat, t4: nat, t5: nat)
    requires WellShaped(p, ci) && bf.Length == |ci|
    requires t5 < |ci| && t3 < |p| && t4 < |p|
    modifies bf
    ensures bf[t5] == old(bf[t5]) + Term(p, ci[t5], c, (t3, t4))
    ensures forall t :: 0 <= t < bf.Length && t != t5 ==> bf[t] == old(bf[t])
  {
    if ci[t5][t4] == ci[t5][t3] {
      bf[t5] := bf[t5] + (p[t3][t4] - c);
    }
  }

  /** The innermost loop of the remainder: add comparison (t3, t4) to every row of the vertical tile [lb, ub]. */
  method AddComparison(bf: array<real>, p: Matrix, ci: seq<seq<nat>>, c: real, t3: nat, t4: nat, lb: nat, ub: nat)
    requires WellShaped(p, ci) && bf.Length == |ci|
    requires lb <= ub < |ci| && t3 < |p| && t4 < |p|
    modifies bf
    ensures forall t :: lb <= t <= ub ==> bf[t] == old(bf[t]) + Term(p, ci[t], c, (t3, t4))
    ensures forall t :: 0 <= t < bf.Length && !(lb <= t <= ub) ==> bf[t] == old(bf[t])
  {
    for t5 := lb to ub + 1
      invariant forall t :: lb <= t < t5 ==> bf[t] == old(bf[t]) + Term(p, ci[t], c, (t3, t4))
      invariant forall t :: 0 <= t < bf.Length && !(lb <= t < t5) ==> bf[t] == old(bf[t])
    {
      AddIfSameCluster(bf, p, ci, c, t3, t4, t5);
    }
  }

  /** The body of the 8-wide innermost loop for one row t5: eight comparisons, in ascending t4. */
  method AddEightToRow(bf: array<real>, p: Matrix, ci: seq<seq<nat>>, c: real, t3: nat, t4: nat, t5: nat)
    requires WellShaped(p, ci) && bf.Length == |ci|
    requires t5 < |ci| && t3 < |p| && t4 + 8 <= |p|
    modifies bf
    ensures bf[t5] == Accumulate(old(bf[t5]), p, ci[t5], c, RowPairs(t3, t4, t4 + 8))
    ensures forall t :: 0 <= t < bf.Length && t != t5 ==> bf[t] == old(bf[t])
  {
    AccumulateEight(bf[t5], p, ci[t5], c, t3, t4);
    AddIfSameCluster(bf, p, ci, c, t3, t4 + 0, t5);
    AddIfSameCluster(bf, p, ci, c, t3, t4 + 1, t5);
    AddIfSameCluster(bf, p, ci, c, t3, t4 + 2, t5);
    AddIfSameCluster(bf, p, ci, c, t3, t4 + 3, t5);
    AddIfSameCluster(bf, p, ci, c, t3, t4 + 4, t5);
    AddIfSameCluster(bf, p, ci, c, t3, t4 + 5, t5);
    AddIfSameCluster(bf, p, ci, c, t3, t4 + 6, t5);
    AddIfSameCluster(bf, p, ci, c, t3, t4 + 7, t5);
  }

  /** The innermost loop of the 8-wide body: comparisons (t3, t4) .. (t3, t4 + 7) for every row of [lb, ub]. */
  method AddEightComparisons(bf: array<real>, p: Matrix, ci: seq<seq<nat>>, c: real, t3: nat, t4: nat, lb: nat, ub: nat)
    requires WellShaped(p, ci) && bf.Length == |ci|
    requires lb <= ub < |ci| && t3 < |p| && t4 + 8 <= |p|
    modifies bf
    ensures forall t :: lb <= t <= ub ==> bf[t] == Accumulate(old(bf[t]), p, ci[t], c, RowPairs(t3, t4, t4 + 8))
    ensures forall t :: 0 <= t < bf.Length && !(lb <= t <= ub) ==> bf[t] == old(bf[t])
  {
    for t5 := lb to ub + 1
      invariant forall t :: lb <= t < t5 ==> bf[t] == Accumulate(old(bf[t]), p, ci[t], c, RowPairs(t3, t4, t4 + 8))
      invariant forall t :: 0 <= t < bf.Length && !(lb <= t < t5) ==> bf[t] == old(bf[t])
    {
      AddEightToRow(bf, p, ci, c, t3, t4, t5);
    }
  }

  /** The guard of the 8-wide loop, as intended: all of t4 .. t4 + 7 are columns. */
  predicate UnrolledGuard(n: nat, t4: nat)
    ensures UnrolledGuard(n, t4) <==> n >= 8 && t4 <= n - 8
  {
    t4 + 7 <= n - 1
  }

  /** arma::uword arithmetic is modulo 2^64. */
  const WordModulus: nat := 0x1_0000_0000_0000_0000

  /** The guard of the 8-wide loop as written: `t4 <= N - 1 - 7`, evaluated in arma::uword. */
  predicate UnrolledGuardAsWritten(n: nat, t4: nat)
    ensures n < 8 ==> (UnrolledGuardAsWritten(n, t4) <==> t4 <= WordModulus + n - 8)
    ensures 8 <= n < WordModulus + 8 ==> (UnrolledGuardAsWritten(n, t4) <==> t4 <= n - 8)
  {
    t4 <= (n - 1 - 7) % WordModulus
  }

  /**
   * With fewer than 8 items, N - 1 - 7 wraps to nearly 2^64, so the guard
   * admits t4 = t3 = 0 although the body then reads columns up to 7: with
   * N = 4, column 4 is already past the last one.
   */
  lemma GuardAsWrittenOverruns()
    ensures UnrolledGuardAsWritten(4, 0) && !UnrolledGuard(4, 0)
    ensures forall n: nat, t4: nat :: 1 <= n < 8 && t4 < n ==> UnrolledGuardAsWritten(n, t4) && !UnrolledGuard(n, t4)
  {
  }

  /** From 8 items on (and below 2^64, as every uword is) nothing wraps, and the guard as written is the intended one. */
  lemma GuardsAgreeFromEight(n: nat, t4: nat)
    requires 8 <= n < WordModulus
    ensures UnrolledGuardAsWritten(n, t4) <==> UnrolledGuard(n, t4)
  {
    assert (n - 1 - 7) % WordModulus == n - 8;
  }

  /**
   * One item t3: compare it with every t4 in [t3, N - 1], eight at a time
   * while eight remain, then one at a time, for every row of [lb, ub].
   */
  method CompareItem(bf: array<real>, p: Matrix, ci: seq<seq<nat>>, c: real, t3: nat, lb: nat, ub: nat)
    requires WellShaped(p, ci) && bf.Length == |ci|
    requires lb <= ub < |ci| && t3 < |p|
    modifies bf
    ensures forall t :: lb <= t <= ub ==> bf[t] == Accumulate(old(bf[t]), p, ci[t], c, RowPairs(t3, t3, |p|))
    ensures forall t :: 0 <= t < bf.Length && !(lb <= t <= ub) ==> bf[t] == old(bf[t])
  {
    var n := |p|;
    var t4 := t3;
    while UnrolledGuard(n, t4)
      invariant t3 <= t4 <= n
      invariant forall t :: lb <= t <= ub ==> bf[t] == Accumulate(old(bf[t]), p, ci[t], c, RowPairs(t3, t3, t4))
      invariant forall t :: 0 <= t < bf.Length && !(lb <= t <= ub) ==> bf[t] == old(bf[t])
      decreases n - t4
    {
      AddEightComparisons(bf, p, ci, c, t3, t4, lb, ub);
      forall t | lb <= t <= ub
        ensures bf[t] == Accumulate(old(bf[t]), p, ci[t], c, RowPairs(t3, t3, t4 + 8))
      {
        RowPairsSplit(old(bf[t]), p, ci[t], c, t3, t4, t4 + 8);
      }
      t4 := t4 + 8;
    }
    while t4 <= n - 1
      invariant t3 <= t4 <= n
      invariant forall t :: lb <= t <= ub ==> bf[t] == Accumulate(old(bf[t]), p, ci[t], c, RowPairs(t3, t3, t4))
      invariant forall t :: 0 <= t < bf.Length && !(lb <= t <= ub) ==> bf[t] == old(bf[t])
      decreases n - t4
    {
      AddComparison(bf, p, ci, c, t3, t4, lb, ub);
      forall t | lb <= t <= ub
        ensures bf[t] == Accumulate(old(bf[t]), p, ci[t], c, RowPairs(t3, t3, t4 + 1))
      {
        AccumulateRowStep(old(bf[t]), p, ci[t], c, t3, t3, t4);
      }
      t4 := t4 + 1;
    }
  }

  /** Comparing t3 with [t3, hi) is comparing it with [t3, mid), then with [mid, hi). */
  lemma RowPairsSplit(acc: real, p: Matrix, row: seq<nat>, c: real, t3: nat, mid: nat, hi: nat)
    requires IsSquare(p, |row|) && t3 <= mid <= hi <= |row| && t3 < |row|
    ensures Accumulate(acc, p, row, c, RowPairs(t3, t3, hi))
         == Accumulate(Accumulate(acc, p, row, c, RowPairs(t3, t3, mid)), p, row, c, RowPairs(t3, mid, hi))
  {
    assert RowPairs(t3, t3, mid) + RowPairs(t3, mid, hi) == RowPairs(t3, t3, hi);
    AccumulateAppend(acc, p, row, c, RowPairs(t3, t3, mid), RowPairs(t3, mid, hi));
  }

  /** One horizontal tile [hLb, hUb] of items t3, within the vertical tile [lb, ub] of rows. */
  method HorizontalTile(bf: array<real>, p: Matrix, ci: seq<seq<nat>>, c: real, lb: nat, ub: nat, hLb: nat, hUb: nat)
    requires WellShaped(p, ci) && bf.Length == |ci|
    requires lb <= ub < |ci| && hLb <= hUb < |p|
    requires forall t :: lb <= t <= ub ==> bf[t] == PartialAffinity(p, ci[t], c, hLb)
    modifies bf
    ensures forall t :: lb <= t <= ub ==> bf[t] == PartialAffinity(p, ci[t], c, hUb + 1)
    ensures forall t :: 0 <= t < bf.Length && !(lb <= t <= ub) ==> bf[t] == old(bf[t])
  {
    for t3 := hLb to hUb + 1
      invariant forall t :: lb <= t <= ub ==> bf[t] == PartialAffinity(p, ci[t], c, t3)
      invariant forall t :: 0 <= t < bf.Length && !(lb <= t <= ub) ==> bf[t] == old(bf[t])
    {
      CompareItem(bf, p, ci, c, t3, lb, ub);
    }
  }

  /** Tile t of ceild(n - 1, 64) starts inside [0, n - 1], and ends where tile t + 1 starts (or at n - 1). */
  lemma TileBounds(n: nat, numTiles: nat, t: nat)
    requires n >= 1 && numTiles == Ceild(n - 1, TileSize) && t < numTiles
    ensures TileSize * t < n - 1
    ensures Min(n, TileSize * (t + 1)) == Min(n - 1, TileSize * t + (TileSize - 1)) + 1
  {
    assert TileSize * (numTiles - 1) < n - 1;
    assert TileSize * t <= TileSize * (numTiles - 1);
  }

  /** One vertical tile [lb, ub] of candidate rows: every horizontal tile of items, in order. */
  method VerticalTile(bf: array<real>, p: Matrix, ci: seq<seq<nat>>, c: real, lb: nat, ub: nat, numHorizTiles: nat)
    requires WellShaped(p, ci) && bf.Length == |ci|
    requires lb <= ub < |ci| && numHorizTiles == Ceild(|p| - 1, TileSize)
    requires forall t :: lb <= t <= ub ==> bf[t] == 0.0
    modifies bf
    ensures forall t :: lb <= t <= ub ==> bf[t] == CoveredAffinity(p, ci[t], c)
    ensures forall t :: 0 <= t < bf.Length && !(lb <= t <= ub) ==> bf[t] == old(bf[t])
  {
    for t2 := 0 to numHorizTiles
      invariant forall t :: lb <= t <= ub ==> bf[t] == PartialAffinity(p, ci[t], c, Min(|p|, TileSize * t2))
      invariant forall t :: 0 <= t < bf.Length && !(lb <= t <= ub) ==> bf[t] == old(bf[t])
    {
      HorizontalTileAt(bf, p, ci, c, lb, ub, t2, numHorizTiles);
    }
  }

  /** Horizontal tile t2: items [64 t2, min(N - 1, 64 t2 + 63)]. */
  method HorizontalTileAt(bf: array<real>, p: Matrix, ci: seq<seq<nat>>, c: real, lb: nat, ub: nat, t2: nat, numHorizTiles: nat)
    requires WellShaped(p, ci) && bf.Length == |ci|
    requires lb <= ub < |ci| && numHorizTiles == Ceild(|p| - 1, TileSize) && t2 < numHorizTiles
    requires forall t :: lb <= t <= ub ==> bf[t] == PartialAffinity(p, ci[t], c, Min(|p|, TileSize * t2))
    modifies bf
    ensures forall t :: lb <= t <= ub ==> bf[t] == PartialAffinity(p, ci[t], c, Min(|p|, TileSize * (t2 + 1)))
    ensures forall t :: 0 <= t < bf.Length && !(lb <= t <= ub) ==> bf[t] == old(bf[t])
  {
    var n := |p|;
    TileBounds(n, numHorizTiles, t2);
    var currHorizTileLb := TileSize * t2;
    var currHorizTileUb := Min(n - 1, TileSize * t2 + (TileSize - 1));
    HorizontalTile(bf, p, ci, c, lb, ub, currHorizTileLb, currHorizTileUb);
  }

  /**
   * The tiled loop nest of minimise_binder: Binder_f, accumulated over ceild(iter - 1, 64)
   * vertical tiles of rows and ceild(N - 1, 64) horizontal tiles of items.
   */
  method BinderScores(p: Matrix, ci: seq<seq<nat>>, c: real) returns (bf: array<real>)
    requires WellShaped(p, ci)
    ensures fresh(bf)
    ensures bf.Length == |ci|
    ensures forall t :: 0 <= t < |ci| ==>
      bf[t] == if t < Covered(|ci|) then CoveredAffinity(p, ci[t], c) else 0.0
  {
    var iter := |ci|;
    var n := |p|;
    bf := new real[iter](_ => 0.0);
    var numVertTiles := Ceild(iter - 1, TileSize);
    var numHorizTiles := Ceild(n - 1, TileSize);
    for t1 := 0 to numVertTiles
      invariant forall t :: 0 <= t < iter ==>
        bf[t] == if t < Min(iter, TileSize * t1) then CoveredAffinity(p, ci[t], c) else 0.0
    {
      var currVertTileLb := TileSize * t1;
      var currVertTileUb := Min(iter - 1, TileSize * t1 + (TileSize - 1));
      VerticalTile(bf, p, ci, c, currVertTileLb, currVertTileUb, numHorizTiles);
    }
  }

  /** Armadillo's index_max: the first position of the largest entry. */
  method IndexMax(a: array<real>) returns (idx: nat)
    requires a.Length >= 1
    ensures IsFirstMax(a[..], idx)
  {
    idx := 0;
    for i := 1 to a.Length
      invariant idx < i
      invariant forall j :: 0 <= j < i ==> a[j] <= a[idx]
      invariant forall j :: 0 <= j < idx ==> a[j] < a[idx]
    {
      if a[i] > a[idx] {
        idx := i;
      }
    }
  }

  /** minimise_binder: the first best-scoring candidate row, and minus its score as the loss. */
  method MinimiseBinder(p: Matrix, ci: seq<seq<nat>>, c: real := DefaultConstBinder) returns (best: BestClustering)
    requires WellShaped(p, ci)
    ensures IsFirstMax(Scores(p, ci, c), best.index)
    ensures best.binderLoss == -Scores(p, ci, c)[best.index]
  {
    var bf := BinderScores(p, ci, c);
    assert bf[..] == Scores(p, ci, c);
    var ind := IndexMax(bf);
    best := BestClustering(ind, -bf[ind]);
  }
}

=== FILE: permutation.dfy ===
// randperm: a random ordering of the items 0..N-1, and the reordered view
// of the co-clustering matrix that salso_cpp builds from it.

module Permutation {

  /** The identity ordering 0, 1, ..., n-1. */
  function Iota(n: nat): (r: seq<nat>)
    ensures |r| == n
    ensures forall i :: 0 <= i < n ==> r[i] == i
  {
    seq(n, i => i)
  }

  /** s orders the items 0..n-1: it holds each of them exactly once. */
  ghost predicate IsPermutation(s: seq<nat>, n: nat)
  {
    && |s| == n
    && (forall i :: 0 <= i < n ==> s[i] < n)
    && multiset(s) == multiset(Iota(n))
  }

  lemma {:induction false} IotaCount(n: nat, v: nat)
    ensures multiset(Iota(n))[v] == if v < n then 1 else 0
  {
    if n > 0 {
      assert Iota(n) == Iota(n - 1) + [n - 1];
      IotaCount(n - 1, v);
    }
  }

  /** Holding each of 0..n-1 exactly once, s names only items below n. */
  lemma PermutationInRange(s: seq<nat>, n: nat)
    requires |s| == n && multiset(s) == multiset(Iota(n))
    ensures forall i :: 0 <= i < n ==> s[i] < n
  {
    forall i | 0 <= i < n
      ensures s[i] < n
    {
      assert s[i] in multiset(s);
      IotaCount(n, s[i]);
    }
  }

  /** A permutation names each item at most once, and names every one. */
  lemma PermutationFacts(s: seq<nat>, n: nat)
    requires IsPermutation(s, n)
    ensures forall i, j :: 0 <= i < j < n ==> s[i] != s[j]
    ensures forall v :: 0 <= v < n ==> v in s
  {
    forall i, j | 0 <= i < j < n
      ensures s[i] != s[j]
    {
      if s[i] == s[j] {
        var v := s[i];
        assert s == s[..j] + s[j..];
        assert s[..j][i] == v;
        assert v in multiset(s[..j]);
        assert s[j..][0] == v;
        assert v in multiset(s[j..]);
        assert multiset(s)[v] == multiset(s[..j])[v] + multiset(s[j..])[v];
        IotaCount(n, v);
        assert false;
      }
    }
    forall v | 0 <= v < n
      ensures v in s
    {
      IotaCount(n, v);
      assert v in multiset(s);
    }
  }

  /** The generator's draws for one shuffle: at step i an index in [0, i]. */
  predicate ValidDraws(draws: seq<nat>, n: nat)
  {
    |draws| == n && forall i :: 0 <= i < n ==> draws[i] <= i
  }

  /** The swap of positions i and j. */
  function Swap(a: seq<nat>, i: nat, j: nat): (r: seq<nat>)
    requires i < |a| && j < |a|
    ensures |r| == |a| && r[i] == a[j] && r[j] == a[i]
    ensures forall k :: 0 <= k < |a| && k != i && k != j ==> r[k] == a[k]
  {
    seq(|a|, k requires 0 <= k < |a| => if k == i then a[j] else if k == j then a[i] else a[k])
  }

  /**
   * The identity ordering of |draws| items after the first i swaps of the
   * shuffle: step m exchanges positions m and draws[m].
   */
  function ShufflePrefix(draws: seq<nat>, i: nat): (r: seq<nat>)
    requires ValidDraws(draws, |draws|) && i <= |draws|
    ensures |r| == |draws|
    ensures forall k :: i <= k < |draws| ==> r[k] == k
    decreases i
  {
    if i == 0 then Iota(|draws|)
    else Swap(ShufflePrefix(draws, i - 1), i - 1, draws[i - 1])
  }

  /** The ordering the shuffle produces from the given draws. */
  function Shuffle(draws: seq<nat>): (r: seq<nat>)
    requires ValidDraws(draws, |draws|)
    ensures |r| == |draws|
  {
    ShufflePrefix(draws, |draws|)
  }

  /** Exchanging two entries by two updates keeps the multiset of entries. */
  lemma ExchangeKeepsMultiset(a: seq<nat>, i: nat, j: nat)
    requires i < |a| && j < |a|
    ensures multiset(a[i := a[j]][j := a[i]]) == multiset(a)
  {
    if i != j {
      var b := a[i := a[j]];
      assert multiset(b) == multiset(a) - multiset{a[i]} + multiset{a[j]};
      assert multiset(b[j := a[i]]) == multiset(b) - multiset{b[j]} + multiset{a[i]};
    }
  }

  /** A swap keeps the multiset of entries. */
  lemma SwapKeepsMultiset(a: seq<nat>, i: nat, j: nat)
    requires i < |a| && j < |a|
    ensures multiset(Swap(a, i, j)) == multiset(a)
  {
    assert Swap(a, i, j) == a[i := a[j]][j := a[i]];
    ExchangeKeepsMultiset(a, i, j);
  }

  /** Each swap of the shuffle keeps the entries of the identity, only moved: v occurs once if v < N, else never. */
  lemma {:induction false} ShuffleCount(draws: seq<nat>, i: nat, v: nat)
    requires ValidDraws(draws, |draws|) && i <= |draws|
    ensures multiset(ShufflePrefix(draws, i))[v] == if v < |draws| then 1 else 0
    decreases i
  {
    if i > 0 {
      var prev := ShufflePrefix(draws, i - 1);
      ShuffleCount(draws, i - 1, v);
      SwapKeepsMultiset(prev, i - 1, draws[i - 1]);
    } else {
      IotaCount(|draws|, v);
    }
  }

  /** Whatever the draws, the shuffle orders the items 0..N-1: it is a permutation. */
  lemma ShuffleIsPermutation(draws: seq<nat>)
    requires ValidDraws(draws, |draws|)
    ensures IsPermutation(Shuffle(draws), |draws|)
  {
    var n := |draws|;
    forall v: nat
      ensures multiset(Shuffle(draws))[v] == multiset(Iota(n))[v]
    {
      ShuffleCount(draws, n, v);
      IotaCount(n, v);
    }
    assert multiset(Shuffle(draws)) == multiset(Iota(n));
    PermutationInRange(Shuffle(draws), n);
  }

  /**
   * randperm(N): fill the identity, then shuffle it in place. The shuffle
   * is Fisher-Yates; the random source is replaced by the indices it
   * would draw.
   */
  method Randperm(n: nat, draws: seq<nat>) returns (order: seq<nat>)
    requires ValidDraws(draws, n)
    ensures order == Shuffle(draws)
    ensures IsPermutation(order, n)
  {
    var ans := new nat[n];
    for i := 0 to n
      invariant forall j :: 0 <= j < i ==> ans[j] == j
    {
      ans[i] := i;
    }
    assert ans[..] == Iota(n);
    for i := 0 to n
      invariant ans[..] == ShufflePrefix(draws, i)
    {
      var j := draws[i];
      ans[i], ans[j] := ans[j], ans[i];
    }
    order := ans[..];
    ShuffleIsPermutation(draws);
  }

  /** `p.submat(order, order)`: entry (i, j) is p's entry for items order[i], order[j]. */
  function Reordered(p: seq<seq<real>>, order: seq<nat>): (q: seq<seq<real>>)
    requires forall i :: 0 <= i < |p| ==> |p[i]| == |p|
    requires forall i :: 0 <= i < |order| ==> order[i] < |p|
    ensures |q| == |order|
    ensures forall i :: 0 <= i < |order| ==> |q[i]| == |order|
    ensures forall i, j :: 0 <= i < |order| && 0 <= j < |order| ==> q[i][j] == p[order[i]][order[j]]
  {
    seq(|order|, i requires 0 <= i < |order| => seq(|order|, j requires 0 <= j < |order| => p[order[i]][order[j]]))
  }

  /** `p.submat(0, 0, m - 1, m - 1)`: the leading m x m block. */
  function Leading(p: seq<seq<real>>, m: nat): (q: seq<seq<real>>)
    requires m <= |p|
    requires forall i :: 0 <= i < |p| ==> |p[i]| == |p|
    ensures |q| == m
    ensures forall i :: 0 <= i < m ==> |q[i]| == m && q[i] == p[i][..m]
  {
    seq(m, i requires 0 <= i < m => p[i][..m])
  }
}

=== FILE: relabel.dfy ===
// Scoring under an item ordering: salso_cpp scores labellings of the
// reordered matrix p.submat(itemOrder, itemOrder) and returns the labels
// with the ordering undone. For a symmetric p the Binder affinity is the
// same in both views: renaming the items maps the pairs t3 <= t4 one to
// one onto themselves, and a sum does not depend on the order of its terms.

module Relabel {
  import opened Binder
  import opened Permutation

  /** p(i, j) == p(j, i): a co-clustering matrix. */
  predicate IsSymmetric(p: Matrix)
  {
    IsSquare(p, |p|) && forall i, j :: 0 <= i < |p| && 0 <= j < |p| ==> p[i][j] == p[j][i]
  }

  /** The unordered pair {a, b}, smaller item first. */
  function Ordered(a: nat, b: nat): (q: Pair)
    ensures q.0 <= q.1
    ensures (q.0 == a && q.1 == b) || (q.0 == b && q.1 == a)
  {
    if a <= b then (a, b) else (b, a)
  }

  /** The pairs of ps with both items renamed by order, smaller item first. */
  function Renamed(ps: seq<Pair>, order: seq<nat>): (r: seq<Pair>)
    requires PairsWithin(ps, |order|)
    ensures |r| == |ps|
    ensures forall i :: 0 <= i < |ps| ==> r[i] == Ordered(order[ps[i].0], order[ps[i].1])
  {
    seq(|ps|, i requires 0 <= i < |ps| => Ordered(order[ps[i].0], order[ps[i].1]))
  }

  /** labels is the labelling of the items that gives item order[k] the label of position k. */
  predicate Relabels(labels: seq<nat>, order: seq<nat>, orderedLabels: seq<nat>)
  {
    && |labels| == |order| == |orderedLabels|
    && (forall k :: 0 <= k < |order| ==> order[k] < |labels|)
    && forall k :: 0 <= k < |order| ==> labels[order[k]] == orderedLabels[k]
  }

  /** Comparing positions i and j of the ordering adds what comparing items order[i] and order[j] adds on p. */
  lemma RenamedTerm(p: Matrix, order: seq<nat>, orderedLabels: seq<nat>, labels: seq<nat>, c: real, q: Pair)
    requires IsSymmetric(p) && |p| == |order|
    requires Relabels(labels, order, orderedLabels)
    requires q.0 < |order| && q.1 < |order|
    ensures Term(Reordered(p, order), orderedLabels, c, q) == Term(p, labels, c, Ordered(order[q.0], order[q.1]))
  {
    var o := Ordered(order[q.0], order[q.1]);
    assert labels[order[q.0]] == orderedLabels[q.0] && labels[order[q.1]] == orderedLabels[q.1];
    assert p[order[q.0]][order[q.1]] == p[o.0][o.1];
  }

  /** Term by term, the run ps on the reordered matrix sums as the renamed run on p. */
  lemma {:induction false} RenamedTerms(p: Matrix, order: seq<nat>, orderedLabels: seq<nat>, labels: seq<nat>,
                                        c: real, acc: real, ps: seq<Pair>)
    requires IsSymmetric(p) && |p| == |order|
    requires Relabels(labels, order, orderedLabels)
    requires PairsWithin(ps, |order|)
    ensures PairsWithin(Renamed(ps, order), |order|)
    ensures Accumulate(acc, Reordered(p, order), orderedLabels, c, ps)
         == Accumulate(acc, p, labels, c, Renamed(ps, order))
    decreases |ps|
  {
    var rs := Renamed(ps, order);
    if ps != [] {
      var front := ps[..|ps| - 1];
      var q := ps[|ps| - 1];
      RenamedTerms(p, order, orderedLabels, labels, c, acc, front);
      assert Renamed(front, order) == rs[..|rs| - 1];
      RenamedTerm(p, order, orderedLabels, labels, c, q);
    }
  }

  /** Adding d to the starting sum adds d to the result. */
  lemma {:induction false} AccumulateShift(acc: real, d: real, p: Matrix, row: seq<nat>, c: real, ps: seq<Pair>)
    requires IsSquare(p, |row|) && PairsWithin(ps, |row|)
    ensures Accumulate(acc + d, p, row, c, ps) == Accumulate(acc, p, row, c, ps) + d
    decreases |ps|
  {
    if ps != [] {
      AccumulateShift(acc, d, p, row, c, ps[..|ps| - 1]);
    }
  }

  /** The pieces of a run of comparisons within range are within range. */
  lemma WithinParts(a: seq<Pair>, x: Pair, b: seq<Pair>, n: nat)
    requires PairsWithin(a + [x] + b, n)
    ensures x.0 < n && x.1 < n
    ensures PairsWithin(a, n) && PairsWithin(b, n) && PairsWithin(a + b, n)
  {
    var s := a + [x] + b;
    assert s[|a|] == x;
    assert forall i :: 0 <= i < |a| ==> s[i] == a[i];
    assert forall i :: 0 <= i < |b| ==> s[|a| + 1 + i] == b[i];
  }

  /** A term in the middle of the run can be moved to its end. */
  lemma MoveToEnd(acc: real, p: Matrix, row: seq<nat>, c: real, a: seq<Pair>, x: Pair, b: seq<Pair>)
    requires IsSquare(p, |row|) && PairsWithin(a + [x] + b, |row|)
    ensures x.0 < |row| && x.1 < |row| && PairsWithin(a + b, |row|)
    ensures Accumulate(acc, p, row, c, a + [x] + b) == Accumulate(acc, p, row, c, a + b) + Term(p, row, c, x)
  {
    WithinParts(a, x, b, |row|);
    AccumulateAppend(acc, p, row, c, a + [x], b);
    AccumulateAppend(acc, p, row, c, a, b);
    var t := Accumulate(acc, p, row, c, a);
    assert (a + [x])[..|a|] == a;
    assert Accumulate(acc, p, row, c, a + [x]) == t + Term(p, row, c, x);
    AccumulateShift(t, Term(p, row, c, x), p, row, c, b);
  }

  /** Taking the same entry out of two equal bags leaves equal bags. */
  lemma CancelOne(m: multiset<Pair>, n: multiset<Pair>, x: Pair)
    requires m + multiset{x} == n + multiset{x}
    ensures m == n
  {
    forall y
      ensures m[y] == n[y]
    {
      assert (m + multiset{x})[y] == (n + multiset{x})[y];
    }
  }

  /** The last entry of ps, found in qs, splits qs into a part before and a part after it that hold the rest of ps. */
  lemma SplitAtLast(ps: seq<Pair>, qs: seq<Pair>) returns (a: seq<Pair>, b: seq<Pair>)
    requires ps != [] && multiset(ps) == multiset(qs)
    ensures qs == a + [ps[|ps| - 1]] + b
    ensures multiset(ps[..|ps| - 1]) == multiset(a + b)
  {
    var x := ps[|ps| - 1];
    var front := ps[..|ps| - 1];
    assert ps == front + [x];
    assert x in multiset(qs);
    var k :| 0 <= k < |qs| && qs[k] == x;
    a, b := qs[..k], qs[k + 1..];
    assert qs == a + [x] + b;
    assert multiset(a + [x] + b) == multiset(a + b) + multiset{x};
    CancelOne(multiset(front), multiset(a + b), x);
  }

  /** The sum of the terms of a run does not depend on their order. */
  lemma {:induction false} AccumulatePermuted(acc: real, p: Matrix, row: seq<nat>, c: real, ps: seq<Pair>, qs: seq<Pair>)
    requires IsSquare(p, |row|) && PairsWithin(ps, |row|) && PairsWithin(qs, |row|)
    requires multiset(ps) == multiset(qs)
    ensures Accumulate(acc, p, row, c, ps) == Accumulate(acc, p, row, c, qs)
    decreases |ps|
  {
    if ps == [] {
      assert |qs| == |multiset(qs)| == 0;
    } else {
      var a, b := SplitAtLast(ps, qs);
      MoveToEnd(acc, p, row, c, a, ps[|ps| - 1], b);
      AccumulatePermuted(acc, p, row, c, ps[..|ps| - 1], a + b);
    }
  }

  /** No entry of s occurs twice. */
  predicate Distinct(s: seq<Pair>)
  {
    forall i, j :: 0 <= i < j < |s| ==> s[i] != s[j]
  }

  /** In a sequence without repeats every entry occurs exactly once. */
  lemma {:induction false} DistinctCount(s: seq<Pair>, x: Pair)
    requires Distinct(s)
    ensures multiset(s)[x] == if x in s then 1 else 0
    decreases |s|
  {
    if s != [] {
      var front := s[..|s| - 1];
      assert s == front + [s[|s| - 1]];
      assert Distinct(front);
      DistinctCount(front, x);
      if x == s[|s| - 1] {
        assert x !in front;
      }
    }
  }

  /** Two sequences without repeats and with the same entries hold them equally often. */
  lemma SameEntries(s: seq<Pair>, t: seq<Pair>)
    requires Distinct(s) && Distinct(t)
    requires forall x :: x in s <==> x in t
    ensures multiset(s) == multiset(t)
  {
    forall x
      ensures multiset(s)[x] == multiset(t)[x]
    {
      DistinctCount(s, x);
      DistinctCount(t, x);
    }
  }

  /** The naive loop over all N items compares each pair t3 <= t4 once, and only those. */
  lemma AllPairs(n: nat)
    ensures Distinct(Pairs(n, n))
    ensures forall q: Pair :: q in Pairs(n, n) <==> q.0 <= q.1 < n
  {
    PairsRowMajor(n, n);
    PairsComplete(n, n);
  }

  /** order gives different positions below n different items, all below n, and every item below n a position. */
  predicate Bijective(order: seq<nat>)
  {
    && (forall i :: 0 <= i < |order| ==> order[i] < |order|)
    && (forall i, j :: 0 <= i < j < |order| ==> order[i] != order[j])
    && (forall v :: 0 <= v < |order| ==> v in order)
  }

  /** A permutation of the positions is a bijection on them. */
  lemma PermutationBijective(order: seq<nat>)
    requires IsPermutation(order, |order|)
    ensures Bijective(order)
  {
    PermutationFacts(order, |order|);
  }

  /** Two ordered pairs of positions that rename to the same pair of items are the same pair. */
  lemma OrderedInjective(order: seq<nat>, q: Pair, r: Pair)
    requires Bijective(order)
    requires q.0 <= q.1 < |order| && r.0 <= r.1 < |order|
    requires Ordered(order[q.0], order[q.1]) == Ordered(order[r.0], order[r.1])
    ensures q == r
  {
  }

  /** Renaming by a bijection sends different pairs t3 <= t4 to different pairs. */
  lemma RenamedDistinct(order: seq<nat>)
    requires Bijective(order)
    ensures Distinct(Renamed(Pairs(|order|, |order|), order))
  {
    var n := |order|;
    var ps := Pairs(n, n);
    var rs := Renamed(ps, order);
    AllPairs(n);
    forall i, j | 0 <= i < j < |rs|
      ensures rs[i] != rs[j]
    {
      if rs[i] == rs[j] {
        OrderedInjective(order, ps[i], ps[j]);
      }
    }
  }

  /** The position of item v under a bijection. */
  lemma PositionOf(order: seq<nat>, v: nat) returns (u: nat)
    requires Bijective(order) && v < |order|
    ensures u < |order| && order[u] == v
  {
    assert v in order;
    u :| 0 <= u < |order| && order[u] == v;
  }

  /** The renaming of the pair w of positions, found among the renamed pairs. */
  lemma RenamedAt(order: seq<nat>, w: Pair)
    requires Bijective(order) && w.0 <= w.1 < |order|
    ensures Ordered(order[w.0], order[w.1]) in Renamed(Pairs(|order|, |order|), order)
  {
    var ps := Pairs(|order|, |order|);
    AllPairs(|order|);
    assert w in ps;
    var i :| 0 <= i < |ps| && ps[i] == w;
    assert Renamed(ps, order)[i] == Ordered(order[w.0], order[w.1]);
  }

  /** Renaming by a bijection reaches every pair t3 <= t4, and only those. */
  lemma RenamedCovers(order: seq<nat>)
    requires Bijective(order)
    ensures forall q: Pair :: q in Renamed(Pairs(|order|, |order|), order) <==> q in Pairs(|order|, |order|)
  {
    var n := |order|;
    var ps := Pairs(n, n);
    var rs := Renamed(ps, order);
    AllPairs(n);
    forall q: Pair | q in ps
      ensures q in rs
    {
      var u := PositionOf(order, q.0);
      var v := PositionOf(order, q.1);
      RenamedAt(order, Ordered(u, v));
    }
  }

  /** Renaming the items by a permutation maps the pairs t3 <= t4 one to one onto themselves. */
  lemma RenamedPairs(order: seq<nat>)
    requires IsPermutation(order, |order|)
    ensures multiset(Renamed(Pairs(|order|, |order|), order)) == multiset(Pairs(|order|, |order|))
  {
    AllPairs(|order|);
    PermutationBijective(order);
    RenamedDistinct(order);
    RenamedCovers(order);
    SameEntries(Renamed(Pairs(|order|, |order|), order), Pairs(|order|, |order|));
  }

  /**
   * For a symmetric p, the affinity of a labelling of the reordered matrix
   * is the affinity, on p, of the same labelling with the ordering undone.
   */
  lemma RelabelledAffinity(p: Matrix, order: seq<nat>, orderedLabels: seq<nat>, labels: seq<nat>, c: real)
    requires IsSymmetric(p) && IsPermutation(order, |p|)
    requires Relabels(labels, order, orderedLabels)
    ensures BinderAffinity(Reordered(p, order), orderedLabels, c) == BinderAffinity(p, labels, c)
  {
    var n := |p|;
    var ps := Pairs(n, n);
    RenamedTerms(p, order, orderedLabels, labels, c, 0.0, ps);
    RenamedPairs(order);
    AccumulatePermuted(0.0, p, labels, c, Renamed(ps, order), ps);
  }
}

=== FILE: salso_header.dfy ===
// Records, constants and integer-division macros of the SALSO search
// (the declarations shared by minimise_binder and salso_cpp).

module SalsoHeader {

  datatype Option<T> = None | Some(value: T)

  /** Side length of the square tiles minimise_binder cuts its loops into. */
  const TileSize: nat := 64

  /** Default arguments of salso_cpp and minimise_binder. */
  const DefaultConstBinder: real := 0.5
  const DefaultNPerm: nat := 10000
  const DefaultNScans: nat := 3

  function Min(a: nat, b: nat): nat
  {
    if a <= b then a else b
  }

  /** The `ceild` macro: the ceiling of n / d. */
  function Ceild(n: nat, d: nat): (r: nat)
    requires d > 0
    ensures d * r >= n
    ensures r == 0 || d * (r - 1) < n
  {
    var q := (n + d - 1) / d;
    DivBounds(n + d - 1, d);
    q
  }

  /** The `floord` macro: the floor of n / d. */
  function Floord(n: nat, d: nat): (r: nat)
    requires d > 0
    ensures d * r <= n < d * (r + 1)
  {
    DivBounds(n, d);
    n / d
  }

  lemma DivBounds(m: nat, d: nat)
    requires d > 0
    ensures d * (m / d) <= m < d * (m / d) + d
  {
  }

  /**
   * A loss as salso_cpp stores it: a double that starts at +infinity
   * ("nothing recorded yet") and otherwise holds a finite value.
   */
  datatype Loss = Infinite | Finite(value: real)

  /** The comparison `a < b` on doubles, with +infinity above every finite value. */
  predicate Below(a: Loss, b: Loss)
    ensures Below(a, b) ==> a.Finite?
    ensures a.Finite? && b.Infinite? ==> Below(a, b)
  {
    match (a, b)
    case (Finite(x), Finite(y)) => x < y
    case (Finite(_), Infinite) => true
    case (Infinite, _) => false
  }

  /** `best_clustering_t`: the winning candidate row and its loss. */
  datatype BestClustering = BestClustering(index: nat, binderLoss: real)

  /** `salso_result`: a label per item (the field `label`) and the loss of that labelling. */
  datatype SalsoResult = SalsoResult(labels: seq<nat>, binderLoss: Loss)

  /**
   * The constructor `salso_result(N, L)`. The label vector's contents are
   * not chosen by the source; they are zero here.
   */
  function NewSalsoResult(n: nat, l: Loss): (r: SalsoResult)
    ensures |r.labels| == n && r.binderLoss == l
  {
    SalsoResult(seq(n, _ => 0), l)
  }

  lemma {:induction false} BelowIsStrictTotalOrder(a: Loss, b: Loss, c: Loss)
    ensures !Below(a, a)
    ensures Below(a, b) ==> !Below(b, a)
    ensures Below(a, b) && Below(b, c) ==> Below(a, c)
    ensures a != b ==> Below(a, b) || Below(b, a)
  {
  }
}

=== FILE: search.dfy ===
// salso_cpp: for each of nPerm random orderings of the items, build a
// labelling by sequential allocation, improve it by sweetening scans, and
// keep the labelling with the lowest loss, mapped back to item order.

module Search {
  import opened SalsoHeader
  import opened Permutation
  import opened Binder
  import opened Relabel

  /** tryNumClust: every label in use plus one new label, capped by maxClust and by N. */
  function TryNum(curr: nat, maxClust: nat, n: nat): (r: nat)
    ensures r <= curr + 1 && r <= maxClust && r <= n
    ensures r == curr + 1 || r == maxClust || r == n
  {
    Min(Min(curr + 1, maxClust), n)
  }

  /** The candidate labellings for item k: row t is row with column k set to t. */
  function CandidateRows(row: seq<nat>, k: nat, tryNum: nat): (r: seq<seq<nat>>)
    requires k < |row|
    ensures |r| == tryNum
    ensures forall t :: 0 <= t < tryNum ==> |r[t]| == |row| && r[t][k] == t
    ensures forall t, j :: 0 <= t < tryNum && 0 <= j < |row| && j != k ==> r[t][j] == row[j]
  {
    seq(tryNum, t requires 0 <= t < tryNum => row[k := t as nat])
  }

  /** `C = repmat(row, tryNumClust, 1)` followed by `C(t, k) = t` for every t. */
  method BuildCandidates(row: seq<nat>, k: nat, tryNum: nat) returns (C: seq<seq<nat>>)
    requires k < |row|
    ensures |C| == tryNum
    ensures forall t :: 0 <= t < tryNum ==> |C[t]| == |row| && C[t][k] == t
    ensures forall t, j :: 0 <= t < tryNum && 0 <= j < |row| && j != k ==> C[t][j] == row[j]
    ensures C == CandidateRows(row, k, tryNum)
  {
    C := seq(tryNum, _ => row);
    for t: nat := 0 to tryNum
      invariant |C| == tryNum
      invariant forall u: nat :: u < t ==> C[u] == row[k := u]
      invariant forall u :: t <= u < tryNum ==> C[u] == row
    {
      var candidate: seq<nat> := C[t][k := t];
      C := C[t := candidate];
    }
  }

  /**
   * One placement of item k, in allocation or in a scan: build the candidates,
   * let minimise_binder pick the first best one, and open a new cluster
   * when the last candidate won.
   */
  method ChooseLabel(p: Matrix, row: seq<nat>, k: nat, curr: nat, maxClust: nat, n: nat, c: real)
    returns (best: BestClustering, newLabel: nat, newCurr: nat)
    requires |row| >= 1 && IsSquare(p, |row|) && k < |row|
    requires 1 <= curr <= Min(maxClust, n)
    ensures var tryNum := TryNum(curr, maxClust, n);
      && newLabel == best.index < tryNum
      && IsFirstMax(Scores(p, CandidateRows(row, k, tryNum), c), newLabel)
      && best.binderLoss == -Scores(p, CandidateRows(row, k, tryNum), c)[newLabel]
      && newCurr == (if newLabel == tryNum - 1 then tryNum else curr)
    ensures curr <= newCurr <= curr + 1 && newCurr <= Min(maxClust, n)
  {
    var tryNumClust := TryNum(curr, maxClust, n);
    var C := BuildCandidates(row, k, tryNumClust);
    best := MinimiseBinder(p, C, c);
    newLabel := C[best.index][k];
    newCurr := if best.index == tryNumClust - 1 then tryNumClust else curr;
  }

  function Max(a: nat, b: nat): nat
  {
    if a >= b then a else b
  }

  /** One more than the largest label of s: the number of clusters a dense labelling uses. */
  function ClusterCount(s: seq<nat>): (r: nat)
    ensures forall i :: 0 <= i < |s| ==> s[i] < r
    ensures |s| == 0 ==> r == 0
    decreases |s|
  {
    if |s| == 0 then 0 else Max(ClusterCount(s[..|s| - 1]), s[|s| - 1] + 1)
  }

  /** The count is attained: the largest label is in use, so it is the least bound on the labels. */
  lemma {:induction false} ClusterCountAttained(s: seq<nat>)
    requires |s| > 0
    ensures ClusterCount(s) - 1 in s
    decreases |s|
  {
    var front := s[..|s| - 1];
    if |front| > 0 && ClusterCount(front) > s[|s| - 1] + 1 {
      ClusterCountAttained(front);
      assert ClusterCount(front) - 1 in front;
    }
  }

  /** The scores sequential allocation compares for the item after prefix. */
  function AllocationScores(pOrd: Matrix, prefix: seq<nat>, maxClust: nat, c: real): seq<real>
    requires |prefix| < |pOrd| && IsSquare(pOrd, |pOrd|) && maxClust >= 1
  {
    var k := |prefix|;
    var tryNum := TryNum(ClusterCount(prefix), maxClust, |pOrd|);
    Scores(Leading(pOrd, k + 1), CandidateRows(prefix + [0], k, tryNum), c)
  }

  /**
   * labels is what sequential allocation has produced for the first
   * |labels| items, with curr clusters opened: item 0 is in cluster 0,
   * curr counts the labels, all of 0..curr-1 are used, and every later item
   * took the first best label given the items before it.
   */
  ghost predicate IsAllocation(pOrd: Matrix, maxClust: nat, c: real, labels: seq<nat>, curr: nat)
    requires |labels| <= |pOrd| && IsSquare(pOrd, |pOrd|) && maxClust >= 1
  {
    && |labels| >= 1 && labels[0] == 0
    && 1 <= curr <= Min(maxClust, |pOrd|)
    && curr == ClusterCount(labels)
    && (forall l :: 0 <= l < curr ==> l in labels)
    && forall j :: 1 <= j < |labels| ==> IsFirstMax(AllocationScores(pOrd, labels[..j], maxClust, c), labels[j])
  }

  /**
   * Sequential allocation: item 0 opens cluster 0, then each
   * item k takes the first best label among those in use and one new label.
   */
  method SequentialAllocation(pOrd: Matrix, maxClust: nat, c: real, cl: array<nat>) returns (currNumClust: nat)
    requires cl.Length >= 1 && IsSquare(pOrd, cl.Length) && maxClust >= 1
    modifies cl
    ensures IsAllocation(pOrd, maxClust, c, cl[..], currNumClust)
  {
    var n := cl.Length;
    cl[0] := 0;
    currNumClust := 1;
    ghost var labels: seq<nat> := [0];
    for k := 1 to n
      invariant labels == cl[..k]
      invariant IsAllocation(pOrd, maxClust, c, labels, currNumClust)
    {
      var newLabel, newCurr := PlaceItem(pOrd, maxClust, c, labels, cl[..k + 1], currNumClust);
      cl[k] := newLabel;
      assert cl[..k + 1] == labels + [newLabel];
      labels := labels + [newLabel];
      currNumClust := newCurr;
    }
    assert cl[..] == labels;
  }

  /** The allocation step for item k = |labels|: choose its label given the labels before it. */
  method PlaceItem(pOrd: Matrix, maxClust: nat, c: real, ghost labels: seq<nat>, row: seq<nat>, curr: nat)
    returns (newLabel: nat, newCurr: nat)
    requires |labels| < |pOrd| && IsSquare(pOrd, |pOrd|) && maxClust >= 1
    requires |row| == |labels| + 1 && row[..|labels|] == labels
    requires IsAllocation(pOrd, maxClust, c, labels, curr)
    ensures IsAllocation(pOrd, maxClust, c, labels + [newLabel], newCurr)
  {
    var k := |row| - 1;
    var best;
    best, newLabel, newCurr := ChooseLabel(Leading(pOrd, k + 1), row, k, curr, maxClust, |pOrd|, c);
    AllocationStep(pOrd, maxClust, c, labels, row, newLabel, newCurr);
  }

  /** Placing item k as ChooseLabel does keeps labels an allocation, now of items 0..k. */
  lemma AllocationStep(pOrd: Matrix, maxClust: nat, c: real, labels: seq<nat>, row: seq<nat>, newLabel: nat, newCurr: nat)
    requires |labels| < |pOrd| && IsSquare(pOrd, |pOrd|) && maxClust >= 1
    requires |row| == |labels| + 1 && row[..|labels|] == labels
    requires IsAllocation(pOrd, maxClust, c, labels, ClusterCount(labels))
    requires var k := |labels|;
      var curr := ClusterCount(labels);
      var tryNum := TryNum(curr, maxClust, |pOrd|);
      && newLabel < tryNum
      && IsFirstMax(Scores(Leading(pOrd, k + 1), CandidateRows(row, k, tryNum), c), newLabel)
      && newCurr == (if newLabel == tryNum - 1 then tryNum else curr)
    ensures IsAllocation(pOrd, maxClust, c, labels + [newLabel], newCurr)
  {
    var curr := ClusterCount(labels);
    var s := labels + [newLabel];
    AllocationScoresOfRow(pOrd, labels, row, maxClust, c);
    ClusterCountSnoc(labels, newLabel);
    PrefixesOfSnoc(labels, newLabel);
    DenseSnoc(labels, newLabel, curr, newCurr);
    assert s[..|labels|] == labels;
  }

  lemma ClusterCountSnoc(s: seq<nat>, x: nat)
    ensures ClusterCount(s + [x]) == Max(ClusterCount(s), x + 1)
  {
    assert (s + [x])[..|s|] == s;
  }

  /** A label that opens a new cluster takes the next number, so no label is skipped. */
  lemma DenseSnoc(s: seq<nat>, x: nat, curr: nat, next: nat)
    requires forall l :: 0 <= l < curr ==> l in s
    requires next == curr || (next == curr + 1 && x == curr)
    ensures forall l :: 0 <= l < next ==> l in s + [x]
  {
    forall l | 0 <= l < next
      ensures l in s + [x]
    {
      if l < curr {
        assert l in s;
      }
    }
  }

  lemma PrefixesOfSnoc(s: seq<nat>, x: nat)
    ensures forall j :: 0 <= j <= |s| ==> (s + [x])[..j] == s[..j]
  {
  }

  /** The candidates built from cl(0..k) depend only on cl(0..k-1): column k is overwritten. */
  lemma AllocationScoresOfRow(pOrd: Matrix, prefix: seq<nat>, row: seq<nat>, maxClust: nat, c: real)
    requires |prefix| < |pOrd| && IsSquare(pOrd, |pOrd|) && maxClust >= 1
    requires |row| == |prefix| + 1 && row[..|prefix|] == prefix
    ensures var k := |prefix|;
      AllocationScores(pOrd, prefix, maxClust, c)
        == Scores(Leading(pOrd, k + 1), CandidateRows(row, k, TryNum(ClusterCount(prefix), maxClust, |pOrd|)), c)
  {
    var k := |prefix|;
    var tryNum := TryNum(ClusterCount(prefix), maxClust, |pOrd|);
    var a := CandidateRows(prefix + [0], k, tryNum);
    var b := CandidateRows(row, k, tryNum);
    forall t | 0 <= t < tryNum
      ensures a[t] == b[t]
    {
      assert a[t] == (prefix + [0])[k := t];
      assert b[t] == row[k := t];
    }
    assert a == b;
  }

  /** Every candidate row gets scored: candidate counts stay within 2..64, so no tile misses the last one. */
  predicate EveryCandidateScored(maxClust: nat, n: nat)
  {
    2 <= Min(maxClust, n) <= TileSize
  }

  /**
   * When every candidate is scored, re-choosing item k never lowers the
   * affinity: the current labelling is itself a candidate (row cl[k]).
   */
  lemma SweetenStepNoWorse(p: Matrix, row: seq<nat>, k: nat, tryNum: nat, idx: nat, c: real)
    requires |row| >= 1 && IsSquare(p, |row|) && k < |row|
    requires 2 <= tryNum <= TileSize && row[k] < tryNum
    requires IsFirstMax(Scores(p, CandidateRows(row, k, tryNum), c), idx)
    ensures Scores(p, CandidateRows(row, k, tryNum), c)[idx] == CoveredAffinity(p, row[k := idx], c)
    ensures CoveredAffinity(p, row, c) <= CoveredAffinity(p, row[k := idx], c)
  {
    CoveredAsWritten(tryNum);
    var C := CandidateRows(row, k, tryNum);
    var s := Scores(p, C, c);
    assert C[row[k]] == row;
    assert s[row[k]] == CoveredAffinity(p, row, c);
    assert s[idx] == CoveredAffinity(p, C[idx], c);
  }

  /** A labelling together with the number of clusters currNumClust says it uses. */
  datatype Clustering = Clustering(labels: seq<nat>, numClust: nat)

  /** cl labels n items with labels below its cluster count, which is between 1 and min(maxClust, n). */
  predicate InRange(cl: Clustering, maxClust: nat, n: nat)
  {
    && |cl.labels| == n
    && 1 <= cl.numClust <= Min(maxClust, n)
    && forall i :: 0 <= i < n ==> cl.labels[i] < cl.numClust
  }

  /**
   * next is cl after the sweetening step for item k: item k takes the first
   * best of the tryNumClust candidate labels, the count becomes tryNumClust
   * when the last candidate wins, and loss is minus the winner's score.
   */
  ghost predicate IsRechoice(pOrd: Matrix, maxClust: nat, c: real, cl: Clustering, k: nat, next: Clustering, loss: real)
    requires |pOrd| >= 1 && IsSquare(pOrd, |pOrd|) && maxClust >= 1 && |cl.labels| == |pOrd| && k < |pOrd|
  {
    var tryNum := TryNum(cl.numClust, maxClust, |pOrd|);
    var s := Scores(pOrd, CandidateRows(cl.labels, k, tryNum), c);
    && |next.labels| == |pOrd|
    && next.labels == cl.labels[k := next.labels[k]]
    && IsFirstMax(s, next.labels[k])
    && next.numClust == (if next.labels[k] == tryNum - 1 then tryNum else cl.numClust)
    && loss == -s[next.labels[k]]
  }

  /** A step keeps the labels in range and opens at most one cluster; it changes only item k. */
  lemma RechoiceInRange(pOrd: Matrix, maxClust: nat, c: real, cl: Clustering, k: nat, next: Clustering, loss: real)
    requires |pOrd| >= 1 && IsSquare(pOrd, |pOrd|) && maxClust >= 1 && InRange(cl, maxClust, |pOrd|) && k < |pOrd|
    requires IsRechoice(pOrd, maxClust, c, cl, k, next, loss)
    ensures InRange(next, maxClust, |pOrd|)
    ensures cl.numClust <= next.numClust <= cl.numClust + 1
    ensures forall i :: 0 <= i < |pOrd| && i != k ==> next.labels[i] == cl.labels[i]
  {
  }

  /** A step is determined by where it starts: there is one first best candidate. */
  lemma RechoiceUnique(pOrd: Matrix, maxClust: nat, c: real, cl: Clustering, k: nat,
                       next1: Clustering, loss1: real, next2: Clustering, loss2: real)
    requires |pOrd| >= 1 && IsSquare(pOrd, |pOrd|) && maxClust >= 1 && |cl.labels| == |pOrd| && k < |pOrd|
    requires IsRechoice(pOrd, maxClust, c, cl, k, next1, loss1)
    requires IsRechoice(pOrd, maxClust, c, cl, k, next2, loss2)
    ensures next1 == next2 && loss1 == loss2
  {
    var tryNum := TryNum(cl.numClust, maxClust, |pOrd|);
    var s := Scores(pOrd, CandidateRows(cl.labels, k, tryNum), c);
    assert next1.labels[k] == FirstMax(s) == next2.labels[k];
  }

  /** When every candidate is scored, a step never lowers the affinity, and its loss is minus the new affinity. */
  lemma RechoiceScored(pOrd: Matrix, maxClust: nat, c: real, cl: Clustering, k: nat, next: Clustering, loss: real)
    requires |pOrd| >= 1 && IsSquare(pOrd, |pOrd|) && maxClust >= 1 && InRange(cl, maxClust, |pOrd|) && k < |pOrd|
    requires EveryCandidateScored(maxClust, |pOrd|)
    requires IsRechoice(pOrd, maxClust, c, cl, k, next, loss)
    ensures CoveredAffinity(pOrd, cl.labels, c) <= CoveredAffinity(pOrd, next.labels, c)
    ensures loss == -CoveredAffinity(pOrd, next.labels, c)
  {
    SweetenStepNoWorse(pOrd, cl.labels, k, TryNum(cl.numClust, maxClust, |pOrd|), next.labels[k], c);
  }

  /** The steps of one scan so far: the clusterings before and after each step, and each step's loss. */
  datatype ScanRun = ScanRun(states: seq<Clustering>, losses: seq<real>)

  /** run re-chose items 0, 1, ..., in turn: states[j + 1] is states[j] after the step for item j. */
  ghost predicate IsScanPrefix(pOrd: Matrix, maxClust: nat, c: real, run: ScanRun)
    requires |pOrd| >= 1 && IsSquare(pOrd, |pOrd|) && maxClust >= 1
  {
    && |run.states| == |run.losses| + 1 && |run.losses| <= |pOrd|
    && (forall j :: 0 <= j < |run.states| ==> |run.states[j].labels| == |pOrd|)
    && forall j :: 0 <= j < |run.losses| ==> StepAt(pOrd, maxClust, c, run, j)
  }

  /** Step j of run re-chose item j. */
  ghost predicate StepAt(pOrd: Matrix, maxClust: nat, c: real, run: ScanRun, j: nat)
    requires |pOrd| >= 1 && IsSquare(pOrd, |pOrd|) && maxClust >= 1
    requires |run.states| == |run.losses| + 1 && |run.losses| <= |pOrd| && j < |run.losses|
    requires forall i :: 0 <= i < |run.states| ==> |run.states[i].labels| == |pOrd|
  {
    IsRechoice(pOrd, maxClust, c, run.states[j], j, run.states[j + 1], run.losses[j])
  }

  /** run is a whole scan from start: the inner loop over k = 0 .. N - 1. */
  ghost predicate IsScan(pOrd: Matrix, maxClust: nat, c: real, start: Clustering, run: ScanRun)
    requires |pOrd| >= 1 && IsSquare(pOrd, |pOrd|) && maxClust >= 1
  {
    && IsScanPrefix(pOrd, maxClust, c, run)
    && |run.losses| == |pOrd|
    && run.states[0] == start
  }

  /** Where the steps of run have left the labels. */
  function ScanEnd(run: ScanRun): Clustering
    requires run.states != []
  {
    run.states[|run.states| - 1]
  }

  /** The loss of the last step of run, which best_clustering holds when the scan ends. */
  function ScanLoss(run: ScanRun): real
    requires run.losses != []
  {
    run.losses[|run.losses| - 1]
  }

  /** One more step extends the steps of a scan. */
  lemma ScanPrefixSnoc(pOrd: Matrix, maxClust: nat, c: real, run: ScanRun, next: Clustering, loss: real)
    requires |pOrd| >= 1 && IsSquare(pOrd, |pOrd|) && maxClust >= 1
    requires IsScanPrefix(pOrd, maxClust, c, run) && |run.losses| < |pOrd|
    requires IsRechoice(pOrd, maxClust, c, ScanEnd(run), |run.losses|, next, loss)
    ensures IsScanPrefix(pOrd, maxClust, c, ScanRun(run.states + [next], run.losses + [loss]))
  {
    var run' := ScanRun(run.states + [next], run.losses + [loss]);
    forall j | 0 <= j < |run'.losses|
      ensures StepAt(pOrd, maxClust, c, run', j)
    {
      if j < |run.losses| {
        assert StepAt(pOrd, maxClust, c, run, j);
        assert run'.states[j] == run.states[j] && run'.states[j + 1] == run.states[j + 1];
        assert run'.losses[j] == run.losses[j];
      }
    }
  }

  /** Every clustering a scan passes through is in range when its start is, and the count never falls. */
  lemma {:induction false} ScanPrefixInRange(pOrd: Matrix, maxClust: nat, c: real, run: ScanRun, j: nat)
    requires |pOrd| >= 1 && IsSquare(pOrd, |pOrd|) && maxClust >= 1
    requires IsScanPrefix(pOrd, maxClust, c, run) && InRange(run.states[0], maxClust, |pOrd|) && j < |run.states|
    ensures InRange(run.states[j], maxClust, |pOrd|)
    ensures run.states[0].numClust <= run.states[j].numClust
    decreases j
  {
    if j > 0 {
      ScanPrefixInRange(pOrd, maxClust, c, run, j - 1);
      assert StepAt(pOrd, maxClust, c, run, j - 1);
      RechoiceInRange(pOrd, maxClust, c, run.states[j - 1], j - 1, run.states[j], run.losses[j - 1]);
    }
  }

  /** When every candidate is scored, no step of a scan lowers the affinity; each loss is minus the affinity after it. */
  lemma {:induction false} ScanPrefixScored(pOrd: Matrix, maxClust: nat, c: real, run: ScanRun, j: nat)
    requires |pOrd| >= 1 && IsSquare(pOrd, |pOrd|) && maxClust >= 1 && EveryCandidateScored(maxClust, |pOrd|)
    requires IsScanPrefix(pOrd, maxClust, c, run) && InRange(run.states[0], maxClust, |pOrd|) && j < |run.states|
    ensures CoveredAffinity(pOrd, run.states[0].labels, c) <= CoveredAffinity(pOrd, run.states[j].labels, c)
    ensures j > 0 ==> run.losses[j - 1] == -CoveredAffinity(pOrd, run.states[j].labels, c)
    decreases j
  {
    if j > 0 {
      ScanPrefixScored(pOrd, maxClust, c, run, j - 1);
      ScanPrefixInRange(pOrd, maxClust, c, run, j - 1);
      assert StepAt(pOrd, maxClust, c, run, j - 1);
      RechoiceScored(pOrd, maxClust, c, run.states[j - 1], j - 1, run.states[j], run.losses[j - 1]);
    }
  }

  /** Steps from the same clustering agree on every step both have taken. */
  lemma {:induction false} StepsAgree(pOrd: Matrix, maxClust: nat, c: real, run1: ScanRun, run2: ScanRun, j: nat)
    requires |pOrd| >= 1 && IsSquare(pOrd, |pOrd|) && maxClust >= 1
    requires IsScanPrefix(pOrd, maxClust, c, run1) && IsScanPrefix(pOrd, maxClust, c, run2)
    requires run1.states[0] == run2.states[0] && j <= |run1.losses| && j <= |run2.losses|
    ensures forall i :: 0 <= i <= j ==> run1.states[i] == run2.states[i]
    ensures forall i :: 0 <= i < j ==> run1.losses[i] == run2.losses[i]
    decreases j
  {
    if j > 0 {
      StepsAgree(pOrd, maxClust, c, run1, run2, j - 1);
      StepAgrees(pOrd, maxClust, c, run1, run2, j - 1);
    }
  }

  /** Step j of two runs that agree before it takes them to the same clustering with the same loss. */
  lemma StepAgrees(pOrd: Matrix, maxClust: nat, c: real, run1: ScanRun, run2: ScanRun, j: nat)
    requires |pOrd| >= 1 && IsSquare(pOrd, |pOrd|) && maxClust >= 1
    requires IsScanPrefix(pOrd, maxClust, c, run1) && IsScanPrefix(pOrd, maxClust, c, run2)
    requires j < |run1.losses| && j < |run2.losses| && run1.states[j] == run2.states[j]
    ensures run1.states[j + 1] == run2.states[j + 1] && run1.losses[j] == run2.losses[j]
  {
    assert StepAt(pOrd, maxClust, c, run1, j) && StepAt(pOrd, maxClust, c, run2, j);
    RechoiceUnique(pOrd, maxClust, c, run1.states[j], j, run1.states[j + 1], run1.losses[j], run2.states[j + 1], run2.losses[j]);
  }

  /** A scan is determined by where it starts. */
  lemma ScanUnique(pOrd: Matrix, maxClust: nat, c: real, start: Clustering, run1: ScanRun, run2: ScanRun)
    requires |pOrd| >= 1 && IsSquare(pOrd, |pOrd|) && maxClust >= 1
    requires IsScan(pOrd, maxClust, c, start, run1) && IsScan(pOrd, maxClust, c, start, run2)
    ensures run1 == run2
  {
    StepsAgree(pOrd, maxClust, c, run1, run2, |pOrd|);
    assert run1.states == run2.states && run1.losses == run2.losses;
  }

  /** A scan keeps the labels in range; when every candidate is scored it never lowers the affinity, and its loss is minus the final affinity. */
  lemma ScanFacts(pOrd: Matrix, maxClust: nat, c: real, start: Clustering, run: ScanRun)
    requires |pOrd| >= 1 && IsSquare(pOrd, |pOrd|) && maxClust >= 1
    requires IsScan(pOrd, maxClust, c, start, run) && InRange(start, maxClust, |pOrd|)
    ensures InRange(ScanEnd(run), maxClust, |pOrd|) && start.numClust <= ScanEnd(run).numClust
    ensures EveryCandidateScored(maxClust, |pOrd|) ==>
      && CoveredAffinity(pOrd, start.labels, c) <= CoveredAffinity(pOrd, ScanEnd(run).labels, c)
      && ScanLoss(run) == -CoveredAffinity(pOrd, ScanEnd(run).labels, c)
  {
    ScanPrefixInRange(pOrd, maxClust, c, run, |pOrd|);
    if EveryCandidateScored(maxClust, |pOrd|) {
      ScanPrefixScored(pOrd, maxClust, c, run, |pOrd|);
    }
  }

  /** Every run has the shape of a whole scan of n items. */
  predicate WholeScans(runs: seq<ScanRun>, n: nat)
  {
    forall i :: 0 <= i < |runs| ==> |runs[i].states| == n + 1 && |runs[i].losses| == n
  }

  /** Where scan i of runs starts: from start for the first, where scan i - 1 ended for the others. */
  function ScanStart(start: Clustering, runs: seq<ScanRun>, n: nat, i: nat): Clustering
    requires WholeScans(runs, n) && i <= |runs|
  {
    if i == 0 then start else ScanEnd(runs[i - 1])
  }

  /** prevScanBinder when scan i begins, every scan before it having improved: infinity, then the last scan's loss. */
  function LossBefore(runs: seq<ScanRun>, n: nat, i: nat): Loss
    requires n >= 1 && WholeScans(runs, n) && i <= |runs|
  {
    if i == 0 then Infinite else Finite(ScanLoss(runs[i - 1]))
  }

  /** Scan i ended below the loss before it. */
  predicate Improves(runs: seq<ScanRun>, n: nat, i: nat)
    requires n >= 1 && WholeScans(runs, n) && i < |runs|
  {
    Below(Finite(ScanLoss(runs[i])), LossBefore(runs, n, i))
  }

  /** Each of runs is a whole scan starting where the one before ended, the first from start. */
  ghost predicate ScansFrom(pOrd: Matrix, maxClust: nat, c: real, start: Clustering, runs: seq<ScanRun>)
    requires |pOrd| >= 1 && IsSquare(pOrd, |pOrd|) && maxClust >= 1
  {
    && WholeScans(runs, |pOrd|)
    && forall i :: 0 <= i < |runs| ==> ScanAt(pOrd, maxClust, c, start, runs, i)
  }

  /** Scan i of runs is a whole scan from where it starts. */
  ghost predicate ScanAt(pOrd: Matrix, maxClust: nat, c: real, start: Clustering, runs: seq<ScanRun>, i: nat)
    requires |pOrd| >= 1 && IsSquare(pOrd, |pOrd|) && maxClust >= 1 && WholeScans(runs, |pOrd|) && i < |runs|
  {
    IsScan(pOrd, maxClust, c, ScanStart(start, runs, |pOrd|, i), runs[i])
  }

  /** The loop's exit rule: every scan but the last improved, and it stopped after nScans scans or after one that did not. */
  predicate StopsAsLoop(runs: seq<ScanRun>, n: nat, nScans: nat)
    requires n >= 1
  {
    && |runs| <= nScans
    && WholeScans(runs, n)
    && (forall i :: 0 <= i < |runs| - 1 ==> Improves(runs, n, i))
    && (|runs| < nScans ==> runs != [] && !Improves(runs, n, |runs| - 1))
  }

  /** runs are the scans the sweetening loop ran from start, in order, until it stopped. */
  ghost predicate IsSweetening(pOrd: Matrix, maxClust: nat, c: real, nScans: nat, start: Clustering, runs: seq<ScanRun>)
    requires |pOrd| >= 1 && IsSquare(pOrd, |pOrd|) && maxClust >= 1
  {
    ScansFrom(pOrd, maxClust, c, start, runs) && StopsAsLoop(runs, |pOrd|, nScans)
  }

  /** How many scans improved: all of them, or all but a last one that ended the loop. */
  function Improving(runs: seq<ScanRun>, n: nat): (r: nat)
    requires n >= 1 && WholeScans(runs, n)
    ensures r <= |runs|
  {
    if runs != [] && !Improves(runs, n, |runs| - 1) then |runs| - 1 else |runs|
  }

  /** The losses of the improving scans, in order. */
  function ScanLosses(runs: seq<ScanRun>, n: nat): (r: seq<real>)
    requires n >= 1 && WholeScans(runs, n)
    ensures |r| == Improving(runs, n)
    ensures forall i :: 0 <= i < |r| ==> r[i] == ScanLoss(runs[i])
  {
    seq(Improving(runs, n), i requires 0 <= i < Improving(runs, n) => ScanLoss(runs[i]))
  }

  /** What prevScanBinder holds when the loop ends: the loss of the last improving scan, or infinity. */
  function PrevScanBinder(runs: seq<ScanRun>, n: nat): Loss
    requires n >= 1 && WholeScans(runs, n)
  {
    LossBefore(runs, n, Improving(runs, n))
  }

  /** The first scan always improves: nothing is below infinity until it ends. */
  lemma FirstScanImproves(runs: seq<ScanRun>, n: nat)
    requires n >= 1 && WholeScans(runs, n) && runs != []
    ensures Improves(runs, n, 0)
  {
  }

  /**
   * The improving losses: at most nScans of them, strictly decreasing, the
   * last one in prevScanBinder; from nScans >= 1 scans there is at least one.
   */
  lemma SweeteningLosses(runs: seq<ScanRun>, n: nat, nScans: nat)
    requires n >= 1 && StopsAsLoop(runs, n, nScans)
    ensures var losses := ScanLosses(runs, n);
      && |losses| <= nScans
      && (losses == [] <==> nScans == 0)
      && (forall i, j :: 0 <= i < j < |losses| ==> losses[j] < losses[i])
      && PrevScanBinder(runs, n) == if losses == [] then Infinite else Finite(losses[|losses| - 1])
  {
    var losses := ScanLosses(runs, n);
    if runs != [] {
      FirstScanImproves(runs, n);
    }
    forall i, j | 0 <= i < j < |losses|
      ensures losses[j] < losses[i]
    {
      StrictlyBelow(runs, n, i, j);
    }
  }

  /** Each improving scan ends strictly below every scan before it. */
  lemma {:induction false} StrictlyBelow(runs: seq<ScanRun>, n: nat, i: nat, j: nat)
    requires n >= 1 && WholeScans(runs, n) && i < j < Improving(runs, n)
    requires forall m :: 0 <= m < |runs| - 1 ==> Improves(runs, n, m)
    ensures ScanLoss(runs[j]) < ScanLoss(runs[i])
    decreases j - i
  {
    assert Improves(runs, n, j);
    if i < j - 1 {
      StrictlyBelow(runs, n, i, j - 1);
    }
  }

  /**
   * When every candidate is scored, sweetening keeps the labels in range,
   * never lowers the affinity, the first improving loss is at most minus the
   * starting affinity, and a finite prevScanBinder is minus the final
   * affinity, even after a last scan that did not improve.
   */
  lemma {:induction false} SweeteningScored(pOrd: Matrix, maxClust: nat, c: real, start: Clustering,
                                            runs: seq<ScanRun>, m: nat)
    requires |pOrd| >= 1 && IsSquare(pOrd, |pOrd|) && maxClust >= 1 && InRange(start, maxClust, |pOrd|)
    requires ScansFrom(pOrd, maxClust, c, start, runs) && m <= |runs|
    ensures var final := ScanStart(start, runs, |pOrd|, m);
      && InRange(final, maxClust, |pOrd|) && start.numClust <= final.numClust
      && (EveryCandidateScored(maxClust, |pOrd|) ==>
           && CoveredAffinity(pOrd, start.labels, c) <= CoveredAffinity(pOrd, final.labels, c)
           && (m > 0 ==> ScanLoss(runs[0]) <= -CoveredAffinity(pOrd, start.labels, c))
           && (m > 0 ==> ScanLoss(runs[m - 1]) == -CoveredAffinity(pOrd, final.labels, c)))
    decreases m
  {
    var n := |pOrd|;
    if m > 0 {
      SweeteningScored(pOrd, maxClust, c, start, runs, m - 1);
      assert ScanAt(pOrd, maxClust, c, start, runs, m - 1);
      ScanFacts(pOrd, maxClust, c, ScanStart(start, runs, n, m - 1), runs[m - 1]);
    }
  }

  /** The clustering and loss the sweetening loop leaves, from the scans it ran. */
  lemma SweetenedOutcome(pOrd: Matrix, maxClust: nat, c: real, nScans: nat, start: Clustering, runs: seq<ScanRun>)
    requires |pOrd| >= 1 && IsSquare(pOrd, |pOrd|) && maxClust >= 1 && InRange(start, maxClust, |pOrd|)
    requires IsSweetening(pOrd, maxClust, c, nScans, start, runs)
    ensures var final := ScanStart(start, runs, |pOrd|, |runs|);
      && InRange(final, maxClust, |pOrd|) && start.numClust <= final.numClust
      && (EveryCandidateScored(maxClust, |pOrd|) ==>
           && CoveredAffinity(pOrd, start.labels, c) <= CoveredAffinity(pOrd, final.labels, c)
           && (ScanLosses(runs, |pOrd|) != [] ==> ScanLosses(runs, |pOrd|)[0] <= -CoveredAffinity(pOrd, start.labels, c))
           && (PrevScanBinder(runs, |pOrd|).Finite? ==>
                 PrevScanBinder(runs, |pOrd|).value == -CoveredAffinity(pOrd, final.labels, c)))
  {
    var n := |pOrd|;
    SweeteningScored(pOrd, maxClust, c, start, runs, |runs|);
    if EveryCandidateScored(maxClust, n) && runs != [] {
      var j := |runs| - 1;
      if Improves(runs, n, j) {
        assert PrevScanBinder(runs, n) == Finite(ScanLoss(runs[j]));
      } else {
        assert j > 0;
        assert PrevScanBinder(runs, n) == Finite(ScanLoss(runs[j - 1]));
        SweeteningScored(pOrd, maxClust, c, start, runs, j);
        assert ScanAt(pOrd, maxClust, c, start, runs, j);
        ScanTies(pOrd, maxClust, c, ScanStart(start, runs, n, j), runs[j], ScanLoss(runs[j - 1]));
      }
    }
  }

  /** A scan whose loss is not below minus the affinity it started from leaves the affinity where it was. */
  lemma ScanTies(pOrd: Matrix, maxClust: nat, c: real, from: Clustering, run: ScanRun, prev: real)
    requires |pOrd| >= 1 && IsSquare(pOrd, |pOrd|) && maxClust >= 1 && EveryCandidateScored(maxClust, |pOrd|)
    requires IsScan(pOrd, maxClust, c, from, run) && InRange(from, maxClust, |pOrd|)
    requires prev == -CoveredAffinity(pOrd, from.labels, c) && !Below(Finite(ScanLoss(run)), Finite(prev))
    ensures prev == ScanLoss(run) == -CoveredAffinity(pOrd, ScanEnd(run).labels, c)
  {
    ScanFacts(pOrd, maxClust, c, from, run);
  }

  /** Scans that start alike agree on every scan both have run. */
  lemma {:induction false} ScansAgree(pOrd: Matrix, maxClust: nat, c: real, start: Clustering,
                                      runs1: seq<ScanRun>, runs2: seq<ScanRun>, i: nat)
    requires |pOrd| >= 1 && IsSquare(pOrd, |pOrd|) && maxClust >= 1
    requires ScansFrom(pOrd, maxClust, c, start, runs1) && ScansFrom(pOrd, maxClust, c, start, runs2)
    requires i <= |runs1| && i <= |runs2|
    ensures forall k :: 0 <= k < i ==> runs1[k] == runs2[k]
    decreases i
  {
    if i > 0 {
      var n, j := |pOrd|, i - 1;
      ScansAgree(pOrd, maxClust, c, start, runs1, runs2, j);
      assert ScanStart(start, runs1, n, j) == ScanStart(start, runs2, n, j);
      assert ScanAt(pOrd, maxClust, c, start, runs1, j) && ScanAt(pOrd, maxClust, c, start, runs2, j);
      ScanUnique(pOrd, maxClust, c, ScanStart(start, runs1, n, j), runs1[j], runs2[j]);
    }
  }

  /** Whether scan j improved depends only on the scans up to j. */
  lemma ImprovesAgree(runs1: seq<ScanRun>, runs2: seq<ScanRun>, n: nat, j: nat)
    requires n >= 1 && WholeScans(runs1, n) && WholeScans(runs2, n) && j < |runs1| && j < |runs2|
    requires forall k :: 0 <= k <= j ==> runs1[k] == runs2[k]
    ensures Improves(runs1, n, j) == Improves(runs2, n, j)
  {
    assert runs1[j] == runs2[j];
    if j > 0 {
      assert runs1[j - 1] == runs2[j - 1];
    }
  }

  /** The scans of a sweetening are determined by where it starts and how many it may run. */
  lemma SweeteningUnique(pOrd: Matrix, maxClust: nat, c: real, nScans: nat, start: Clustering,
                         runs1: seq<ScanRun>, runs2: seq<ScanRun>)
    requires |pOrd| >= 1 && IsSquare(pOrd, |pOrd|) && maxClust >= 1
    requires IsSweetening(pOrd, maxClust, c, nScans, start, runs1)
    requires IsSweetening(pOrd, maxClust, c, nScans, start, runs2)
    ensures runs1 == runs2
  {
    var n := |pOrd|;
    var m := Min(|runs1|, |runs2|);
    ScansAgree(pOrd, maxClust, c, start, runs1, runs2, m);
    if m > 0 {
      ImprovesAgree(runs1, runs2, n, m - 1);
    }
    assert |runs1| == |runs2|;
  }

  /** The scan step for item k: re-choose its label in place. */
  method RechooseItem(pOrd: Matrix, maxClust: nat, c: real, cl: array<nat>, k: nat, curr: nat)
    returns (best: BestClustering, newCurr: nat)
    requires cl.Length == |pOrd| >= 1 && IsSquare(pOrd, |pOrd|) && k < |pOrd|
    requires InRange(Clustering(cl[..], curr), maxClust, |pOrd|)
    modifies cl
    ensures IsRechoice(pOrd, maxClust, c, Clustering(old(cl[..]), curr), k, Clustering(cl[..], newCurr), best.binderLoss)
  {
    var newLabel;
    best, newLabel, newCurr := ChooseLabel(pOrd, cl[..], k, curr, maxClust, |pOrd|, c);
    cl[k] := newLabel;
  }

  /** One scan: the inner loop over k = 0 .. N - 1, each item re-chosen given the current labels of all the others. */
  method ScanItems(pOrd: Matrix, maxClust: nat, c: real, cl: array<nat>, curr0: nat)
    returns (currNumClust: nat, loss: real, ghost run: ScanRun)
    requires cl.Length == |pOrd| >= 1 && IsSquare(pOrd, |pOrd|)
    requires InRange(Clustering(cl[..], curr0), maxClust, |pOrd|)
    modifies cl
    ensures IsScan(pOrd, maxClust, c, Clustering(old(cl[..]), curr0), run)
    ensures ScanEnd(run) == Clustering(cl[..], currNumClust) && loss == ScanLoss(run)
  {
    currNumClust := curr0;
    loss := 0.0;
    run := ScanRun([Clustering(cl[..], curr0)], []);
    for k := 0 to |pOrd|
      invariant IsScanPrefix(pOrd, maxClust, c, run) && |run.losses| == k
      invariant run.states[0] == Clustering(old(cl[..]), curr0)
      invariant ScanEnd(run) == Clustering(cl[..], currNumClust)
      invariant k > 0 ==> loss == ScanLoss(run)
      invariant InRange(Clustering(cl[..], currNumClust), maxClust, |pOrd|)
    {
      ghost var before := Clustering(cl[..], currNumClust);
      var best;
      best, currNumClust := RechooseItem(pOrd, maxClust, c, cl, k, currNumClust);
      loss := best.binderLoss;
      RechoiceInRange(pOrd, maxClust, c, before, k, Clustering(cl[..], currNumClust), loss);
      ScanPrefixSnoc(pOrd, maxClust, c, run, Clustering(cl[..], currNumClust), loss);
      run := ScanRun(run.states + [Clustering(cl[..], currNumClust)], run.losses + [loss]);
    }
  }

  /**
   * The sweetening loop: up to nScans scans; a scan whose final loss is
   * below prevScanBinder becomes the new prevScanBinder, any other ends the
   * loop (its relabelling stays in cl).
   */
  method Sweeten(pOrd: Matrix, maxClust: nat, c: real, nScans: nat, cl: array<nat>, curr0: nat)
    returns (currNumClust: nat, prevScanBinder: Loss, ghost runs: seq<ScanRun>)
    requires cl.Length == |pOrd| >= 1 && IsSquare(pOrd, |pOrd|)
    requires InRange(Clustering(cl[..], curr0), maxClust, |pOrd|)
    modifies cl
    ensures IsSweetening(pOrd, maxClust, c, nScans, Clustering(old(cl[..]), curr0), runs)
    ensures Clustering(cl[..], currNumClust) == ScanStart(Clustering(old(cl[..]), curr0), runs, |pOrd|, |runs|)
    ensures prevScanBinder == PrevScanBinder(runs, |pOrd|)
  {
    var n := |pOrd|;
    ghost var start := Clustering(cl[..], curr0);
    currNumClust := curr0;
    prevScanBinder := Infinite;
    runs := [];
    var currScan := 0;
    while currScan < nScans
      invariant currScan <= nScans && |runs| == currScan
      invariant WholeScans(runs, n)
      invariant ScansFrom(pOrd, maxClust, c, start, runs)
      invariant forall i :: 0 <= i < |runs| ==> Improves(runs, n, i)
      invariant Clustering(cl[..], currNumClust) == ScanStart(start, runs, n, |runs|)
      invariant prevScanBinder == LossBefore(runs, n, |runs|)
      invariant InRange(Clustering(cl[..], currNumClust), maxClust, n)
    {
      ghost var from := Clustering(cl[..], currNumClust);
      var loss;
      ghost var run;
      currNumClust, loss, run := ScanItems(pOrd, maxClust, c, cl, currNumClust);
      ScanFacts(pOrd, maxClust, c, from, run);
      RunsSnoc(pOrd, maxClust, c, start, runs, run);
      runs := runs + [run];
      if Below(Finite(loss), prevScanBinder) {
        prevScanBinder := Finite(loss);
      } else {
        break;
      }
      currScan := currScan + 1;
    }
  }

  /** One more scan, from where the others ended, extends the scans run so far. */
  lemma RunsSnoc(pOrd: Matrix, maxClust: nat, c: real, start: Clustering, runs: seq<ScanRun>, run: ScanRun)
    requires |pOrd| >= 1 && IsSquare(pOrd, |pOrd|) && maxClust >= 1
    requires ScansFrom(pOrd, maxClust, c, start, runs)
    requires IsScan(pOrd, maxClust, c, ScanStart(start, runs, |pOrd|, |runs|), run)
    ensures ScansFrom(pOrd, maxClust, c, start, runs + [run])
    ensures forall i :: 0 <= i < |runs| ==> Improves(runs, |pOrd|, i) ==> Improves(runs + [run], |pOrd|, i)
    ensures LossBefore(runs + [run], |pOrd|, |runs| + 1) == Finite(ScanLoss(run))
    ensures ScanStart(start, runs + [run], |pOrd|, |runs| + 1) == ScanEnd(run)
    ensures Improves(runs + [run], |pOrd|, |runs|) == Below(Finite(ScanLoss(run)), LossBefore(runs, |pOrd|, |runs|))
  {
    var n := |pOrd|;
    var runs' := runs + [run];
    forall i | 0 <= i < |runs'|
      ensures ScanAt(pOrd, maxClust, c, start, runs', i)
    {
      if i < |runs| {
        assert ScanAt(pOrd, maxClust, c, start, runs, i);
        assert runs'[i] == runs[i];
        assert ScanStart(start, runs', n, i) == ScanStart(start, runs, n, i);
      }
    }
  }

  /** Undo the ordering on the labels: item order[k] gets the label of position k. */
  method Unpermute(labels: array<nat>, order: seq<nat>, cl: array<nat>)
    requires labels != cl && labels.Length == cl.Length == |order|
    requires IsPermutation(order, |order|)
    modifies labels
    ensures forall k :: 0 <= k < |order| ==> labels[order[k]] == cl[k]
  {
    PermutationFacts(order, |order|);
    for k := 0 to |order|
      invariant forall j :: 0 <= j < k ==> labels[order[j]] == cl[j]
    {
      labels[order[k]] := cl[k];
    }
  }

  /**
   * The outcome of one ordering: the ordering, the allocation in that
   * ordering, the scans run from it, the final labels in that ordering and
   * the scan loss.
   */
  datatype Trial = Trial(order: seq<nat>, allocation: seq<nat>, runs: seq<ScanRun>, labels: seq<nat>, loss: Loss)

  /** The trial partialResult holds after the given ones: each strict improvement replaces it. */
  function Recorded(trials: seq<Trial>): (r: Option<nat>)
    ensures r.Some? ==> r.value < |trials|
    decreases |trials|
  {
    if trials == [] then None
    else
      var prior := Recorded(trials[..|trials| - 1]);
      var held := if prior.Some? then trials[prior.value].loss else Infinite;
      if Below(trials[|trials| - 1].loss, held) then Some(|trials| - 1) else prior
  }

  /** The loss partialResult holds after the given trials. */
  function RecordedLoss(trials: seq<Trial>): Loss
  {
    match Recorded(trials)
    case None => Infinite
    case Some(b) => trials[b].loss
  }

  /**
   * The recorded trial is the first one of least loss; nothing is recorded
   * exactly when every loss is infinite.
   */
  lemma {:induction false} RecordedIsFirstMinimum(trials: seq<Trial>)
    ensures Recorded(trials).None? <==> forall i :: 0 <= i < |trials| ==> trials[i].loss == Infinite
    ensures Recorded(trials).Some? ==>
      var b := Recorded(trials).value;
      && trials[b].loss.Finite?
      && (forall i :: 0 <= i < |trials| ==> !Below(trials[i].loss, trials[b].loss))
      && (forall i :: 0 <= i < b ==> Below(trials[b].loss, trials[i].loss))
    decreases |trials|
  {
    if trials != [] {
      var front := trials[..|trials| - 1];
      RecordedIsFirstMinimum(front);
      var last := trials[|trials| - 1];
      assert forall i :: 0 <= i < |front| ==> trials[i] == front[i];
      if Recorded(front).Some? {
        var b := Recorded(front).value;
        forall i | 0 <= i < |trials|
          ensures !Below(trials[i].loss, trials[Recorded(trials).value].loss)
        {
          BelowIsStrictTotalOrder(trials[i].loss, front[b].loss, last.loss);
          BelowIsStrictTotalOrder(last.loss, front[b].loss, trials[i].loss);
        }
        forall i | 0 <= i < Recorded(trials).value
          ensures Below(trials[Recorded(trials).value].loss, trials[i].loss)
        {
          BelowIsStrictTotalOrder(last.loss, front[b].loss, trials[i].loss);
        }
      }
    }
  }

  /** One more trial either takes over the record, when strictly better, or leaves it. */
  lemma RecordedSnoc(trials: seq<Trial>, trial: Trial)
    ensures Recorded(trials + [trial]) ==
      if Below(trial.loss, RecordedLoss(trials)) then Some(|trials|) else Recorded(trials)
    ensures RecordedLoss(trials + [trial]) ==
      if Below(trial.loss, RecordedLoss(trials)) then trial.loss else RecordedLoss(trials)
  {
    assert (trials + [trial])[..|trials|] == trials;
  }

  /** The critical section: keep the thread's partial result only if it is strictly better. */
  function Merge(partial: SalsoResult, result: SalsoResult): (r: SalsoResult)
    ensures r == partial || r == result
    ensures !Below(partial.binderLoss, r.binderLoss) && !Below(result.binderLoss, r.binderLoss)
    ensures partial.binderLoss == result.binderLoss ==> r == result
  {
    if Below(partial.binderLoss, result.binderLoss) then partial else result
  }

  /**
   * trial is one iteration of salso_cpp's loop with the ordering randperm
   * draws from draws: sequential allocation of the reordered matrix, then
   * sweetening from the allocation; the labels are where the scans end and
   * the loss is prevScanBinder.
   */
  ghost predicate TrialOutcome(p: Matrix, maxClust: nat, c: real, nScans: nat, draws: seq<nat>, trial: Trial)
    requires |p| >= 1 && IsSquare(p, |p|) && maxClust >= 1
  {
    var n := |p|;
    && ValidDraws(draws, n)
    && trial.order == Shuffle(draws)
    && |trial.order| == n && (forall i :: 0 <= i < n ==> trial.order[i] < n)
    && |trial.allocation| == n
    && var pOrd := Reordered(p, trial.order);
       var start := Clustering(trial.allocation, ClusterCount(trial.allocation));
       && IsAllocation(pOrd, maxClust, c, trial.allocation, start.numClust)
       && IsSweetening(pOrd, maxClust, c, nScans, start, trial.runs)
       && trial.labels == ScanStart(start, trial.runs, n, |trial.runs|).labels
       && trial.loss == PrevScanBinder(trial.runs, n)
  }

  /**
   * What an ordering's search yields: a permutation, labels below
   * min(maxClust, N), a loss that is infinite only when no scan ran, and,
   * when every candidate is scored, a loss that is minus the final covered
   * affinity and no more than minus the allocation's.
   */
  lemma TrialOutcomeFacts(p: Matrix, maxClust: nat, c: real, nScans: nat, draws: seq<nat>, trial: Trial)
    requires |p| >= 1 && IsSquare(p, |p|) && maxClust >= 1
    requires TrialOutcome(p, maxClust, c, nScans, draws, trial)
    ensures IsPermutation(trial.order, |p|)
    ensures |trial.labels| == |p| && forall i :: 0 <= i < |p| ==> trial.labels[i] < Min(maxClust, |p|)
    ensures trial.loss == Infinite <==> nScans == 0
    ensures EveryCandidateScored(maxClust, |p|) && trial.loss.Finite? ==>
      var pOrd := Reordered(p, trial.order);
      && trial.loss.value == -CoveredAffinity(pOrd, trial.labels, c)
      && trial.loss.value <= -CoveredAffinity(pOrd, trial.allocation, c)
  {
    var n := |p|;
    ShuffleIsPermutation(draws);
    var pOrd := Reordered(p, trial.order);
    var start := Clustering(trial.allocation, ClusterCount(trial.allocation));
    SweetenedOutcome(pOrd, maxClust, c, nScans, start, trial.runs);
    SweeteningLosses(trial.runs, n, nScans);
    var losses := ScanLosses(trial.runs, n);
    if |losses| > 1 {
      assert losses[|losses| - 1] < losses[0];
    }
  }

  /** The allocation is determined by the ordered matrix: each label is the one first best candidate. */
  lemma {:induction false} AllocationUnique(pOrd: Matrix, maxClust: nat, c: real, a1: seq<nat>, a2: seq<nat>, j: nat)
    requires |a1| == |a2| <= |pOrd| && IsSquare(pOrd, |pOrd|) && maxClust >= 1
    requires IsAllocation(pOrd, maxClust, c, a1, ClusterCount(a1)) && IsAllocation(pOrd, maxClust, c, a2, ClusterCount(a2))
    requires j <= |a1|
    ensures a1[..j] == a2[..j]
    decreases j
  {
    if j > 1 {
      AllocationUnique(pOrd, maxClust, c, a1, a2, j - 1);
      var s := AllocationScores(pOrd, a1[..j - 1], maxClust, c);
      assert IsFirstMax(s, a1[j - 1]) && IsFirstMax(s, a2[j - 1]);
      assert a1[j - 1] == FirstMax(s) == a2[j - 1];
      PrefixSnoc(a1, a2, j);
    } else if j == 1 {
      assert a1[..1] == [0] == a2[..1];
    }
  }

  /** Prefixes that agree, followed by the same entry, agree one further. */
  lemma PrefixSnoc(a1: seq<nat>, a2: seq<nat>, j: nat)
    requires 1 <= j <= |a1| && j <= |a2| && a1[..j - 1] == a2[..j - 1] && a1[j - 1] == a2[j - 1]
    ensures a1[..j] == a2[..j]
  {
    assert a1[..j] == a1[..j - 1] + [a1[j - 1]] && a2[..j] == a2[..j - 1] + [a2[j - 1]];
  }

  /** The outcome of an ordering is determined by its draws: minimise_binder has no other choice to make. */
  lemma TrialOutcomeUnique(p: Matrix, maxClust: nat, c: real, nScans: nat, draws: seq<nat>, trial1: Trial, trial2: Trial)
    requires |p| >= 1 && IsSquare(p, |p|) && maxClust >= 1
    requires TrialOutcome(p, maxClust, c, nScans, draws, trial1) && TrialOutcome(p, maxClust, c, nScans, draws, trial2)
    ensures trial1 == trial2
  {
    var n := |p|;
    var pOrd := Reordered(p, trial1.order);
    AllocationUnique(pOrd, maxClust, c, trial1.allocation, trial2.allocation, n);
    assert trial1.allocation == trial1.allocation[..n] && trial2.allocation == trial2.allocation[..n];
    var start := Clustering(trial1.allocation, ClusterCount(trial1.allocation));
    SweeteningUnique(pOrd, maxClust, c, nScans, start, trial1.runs, trial2.runs);
  }

  /** The last item's diagonal term, which the tiles leave out when N - 1 is a multiple of 64. */
  function UncoveredTerm(p: Matrix, order: seq<nat>, c: real): real
    requires |p| >= 1 && IsSquare(p, |p|) && |order| == |p| && forall i :: 0 <= i < |order| ==> order[i] < |p|
  {
    var n := |p|;
    if (n - 1) % TileSize == 0 then p[order[n - 1]][order[n - 1]] - c else 0.0
  }

  /**
   * For a symmetric matrix with every candidate scored, a trial's finite
   * loss, read on the items in their own order, is minus their Binder
   * affinity plus the term the tiles leave out.
   */
  lemma TrialLossOnItems(p: Matrix, maxClust: nat, c: real, nScans: nat, draws: seq<nat>, trial: Trial, labels: seq<nat>)
    requires |p| >= 1 && IsSquare(p, |p|) && maxClust >= 1 && IsSymmetric(p) && EveryCandidateScored(maxClust, |p|)
    requires TrialOutcome(p, maxClust, c, nScans, draws, trial) && trial.loss.Finite?
    requires Relabels(labels, trial.order, trial.labels)
    ensures trial.loss.value == UncoveredTerm(p, trial.order, c) - BinderAffinity(p, labels, c)
  {
    var n := |p|;
    TrialOutcomeFacts(p, maxClust, c, nScans, draws, trial);
    var pOrd := Reordered(p, trial.order);
    CoveredAffinityOffset(pOrd, trial.labels, c);
    assert pOrd[n - 1][n - 1] == p[trial.order[n - 1]][trial.order[n - 1]];
    RelabelledAffinity(p, trial.order, trial.labels, labels, c);
  }

  /**
   * One iteration of the parallel loop: order the items, allocate them in
   * that order, then sweeten the allocation.
   */
  method SearchOrdering(p: Matrix, maxClust: nat, c: real, nScans: nat, draws: seq<nat>)
    returns (itemOrder: seq<nat>, cl: array<nat>, prevScanBinder: Loss, ghost trial: Trial)
    requires |p| >= 1 && IsSquare(p, |p|) && maxClust >= 1 && ValidDraws(draws, |p|)
    ensures fresh(cl) && cl.Length == |p| && IsPermutation(itemOrder, |p|)
    ensures TrialOutcome(p, maxClust, c, nScans, draws, trial)
    ensures trial.order == itemOrder && trial.labels == cl[..] && trial.loss == prevScanBinder
  {
    var n := |p|;
    itemOrder := Randperm(n, draws);
    var pOrd := Reordered(p, itemOrder);
    cl := new nat[n];
    var currNumClust := SequentialAllocation(pOrd, maxClust, c, cl);
    ghost var allocation := cl[..];
    ghost var runs;
    currNumClust, prevScanBinder, runs := Sweeten(pOrd, maxClust, c, nScans, cl, currNumClust);
    trial := Trial(itemOrder, allocation, runs, cl[..], prevScanBinder);
  }

  /** Every trial is what its draws give. */
  ghost predicate AllOutcomes(p: Matrix, maxClust: nat, c: real, nScans: nat, draws: seq<seq<nat>>, trials: seq<Trial>)
    requires |p| >= 1 && IsSquare(p, |p|) && maxClust >= 1 && |trials| <= |draws|
  {
    forall it :: 0 <= it < |trials| ==> OutcomeAt(p, maxClust, c, nScans, draws, trials, it)
  }

  /** Trial it is what draws[it] gives. */
  ghost predicate OutcomeAt(p: Matrix, maxClust: nat, c: real, nScans: nat, draws: seq<seq<nat>>, trials: seq<Trial>, it: nat)
    requires |p| >= 1 && IsSquare(p, |p|) && maxClust >= 1 && it < |trials| <= |draws|
  {
    TrialOutcome(p, maxClust, c, nScans, draws[it], trials[it])
  }

  /**
   * salso_cpp, with the OpenMP team reduced to one thread. draws[iter]
   * stands for the random source of iteration iter.
   */
  method SalsoCpp(p: Matrix, maxClust: nat, draws: seq<seq<nat>>, constBinder: real := DefaultConstBinder,
                  nPerm: nat := DefaultNPerm, nScans: nat := DefaultNScans)
    returns (result: SalsoResult, ghost trials: seq<Trial>)
    requires |p| >= 1 && IsSquare(p, |p|) && maxClust >= 1
    requires |draws| == nPerm && forall iter :: 0 <= iter < nPerm ==> ValidDraws(draws[iter], |p|)
    ensures |result.labels| == |p|
    ensures |trials| == nPerm && AllOutcomes(p, maxClust, constBinder, nScans, draws, trials)
    ensures result.binderLoss == RecordedLoss(trials)
    ensures Recorded(trials).Some? ==> IsPermutation(trials[Recorded(trials).value].order, |p|)
    ensures Recorded(trials).Some? ==>
      var best := trials[Recorded(trials).value];
      && Relabels(result.labels, best.order, best.labels)
      && (EveryCandidateScored(maxClust, |p|) && IsSymmetric(p) ==>
            result.binderLoss == Finite(UncoveredTerm(p, best.order, constBinder) - BinderAffinity(p, result.labels, constBinder)))
    ensures nScans == 0 ==> result.binderLoss == Infinite
    ensures nScans > 0 && nPerm > 0 ==> result.binderLoss.Finite?
    ensures result.binderLoss.Finite? ==> forall i :: 0 <= i < |p| ==> result.labels[i] < Min(maxClust, |p|)
  {
    var n := |p|;
    result := NewSalsoResult(n, Infinite);
    var partialLabel := new nat[n](_ => 0);
    var partialLoss := Infinite;
    trials := [];
    for iter := 0 to nPerm
      invariant |trials| == iter
      invariant partialLabel.Length == n
      invariant partialLoss == RecordedLoss(trials)
      invariant Recorded(trials).Some? ==>
        Relabels(partialLabel[..], trials[Recorded(trials).value].order, trials[Recorded(trials).value].labels)
      invariant AllOutcomes(p, maxClust, constBinder, nScans, draws, trials)
    {
      var itemOrder, cl, prevScanBinder, trial := SearchOrdering(p, maxClust, constBinder, nScans, draws[iter]);
      partialLoss := KeepIfBetter(partialLabel, partialLoss, itemOrder, cl, prevScanBinder, trials, trial);
      AllOutcomesSnoc(p, maxClust, constBinder, nScans, draws, trials, trial);
      trials := trials + [trial];
    }
    RecordedIsFirstMinimum(trials);
    result := Merge(SalsoResult(partialLabel[..], partialLoss), result);
    SalsoOutcome(p, maxClust, constBinder, nScans, draws, trials, result);
  }

  /**
   * What the recorded trial gives: a loss that is infinite only when no
   * scan ran, labels below min(maxClust, N), and, for a symmetric matrix
   * with every candidate scored, the loss on the items.
   */
  lemma SalsoOutcome(p: Matrix, maxClust: nat, c: real, nScans: nat, draws: seq<seq<nat>>, trials: seq<Trial>,
                     result: SalsoResult)
    requires |p| >= 1 && IsSquare(p, |p|) && maxClust >= 1 && |trials| == |draws|
    requires AllOutcomes(p, maxClust, c, nScans, draws, trials)
    requires |result.labels| == |p| && result.binderLoss == RecordedLoss(trials)
    requires Recorded(trials).Some? ==>
      Relabels(result.labels, trials[Recorded(trials).value].order, trials[Recorded(trials).value].labels)
    ensures Recorded(trials).Some? ==> IsPermutation(trials[Recorded(trials).value].order, |p|)
    ensures Recorded(trials).Some? && EveryCandidateScored(maxClust, |p|) && IsSymmetric(p) ==>
      var best := trials[Recorded(trials).value];
      result.binderLoss == Finite(UncoveredTerm(p, best.order, c) - BinderAffinity(p, result.labels, c))
    ensures nScans == 0 ==> result.binderLoss == Infinite
    ensures nScans > 0 && |trials| > 0 ==> result.binderLoss.Finite?
    ensures result.binderLoss.Finite? ==> forall i :: 0 <= i < |p| ==> result.labels[i] < Min(maxClust, |p|)
  {
    RecordedIsFirstMinimum(trials);
    if Recorded(trials).Some? {
      var b := Recorded(trials).value;
      assert OutcomeAt(p, maxClust, c, nScans, draws, trials, b);
      RecordedFacts(p, maxClust, c, nScans, draws[b], trials[b], result.labels);
    } else if |trials| > 0 {
      assert OutcomeAt(p, maxClust, c, nScans, draws, trials, 0);
      TrialOutcomeFacts(p, maxClust, c, nScans, draws[0], trials[0]);
    }
  }

  /**
   * The end of an iteration: the thread's partial result takes the
   * unpermuted labels of the new trial when its loss is strictly better.
   */
  method KeepIfBetter(partialLabel: array<nat>, partialLoss: Loss, itemOrder: seq<nat>, cl: array<nat>,
                      prevScanBinder: Loss, ghost trials: seq<Trial>, ghost trial: Trial)
    returns (newLoss: Loss)
    requires partialLabel != cl && partialLabel.Length == cl.Length == |itemOrder|
    requires IsPermutation(itemOrder, |itemOrder|)
    requires trial.order == itemOrder && trial.labels == cl[..] && trial.loss == prevScanBinder
    requires partialLoss == RecordedLoss(trials)
    requires Recorded(trials).Some? ==>
      Relabels(partialLabel[..], trials[Recorded(trials).value].order, trials[Recorded(trials).value].labels)
    modifies partialLabel
    ensures newLoss == RecordedLoss(trials + [trial])
    ensures Recorded(trials + [trial]).Some? ==>
      var best := (trials + [trial])[Recorded(trials + [trial]).value];
      Relabels(partialLabel[..], best.order, best.labels)
  {
    RecordedSnoc(trials, trial);
    newLoss := partialLoss;
    if Below(prevScanBinder, partialLoss) {
      Unpermute(partialLabel, itemOrder, cl);
      newLoss := prevScanBinder;
    } else if Recorded(trials).Some? {
      assert (trials + [trial])[Recorded(trials).value] == trials[Recorded(trials).value];
    }
  }

  /** One more trial that is what its draws give keeps every trial so. */
  lemma AllOutcomesSnoc(p: Matrix, maxClust: nat, c: real, nScans: nat, draws: seq<seq<nat>>, trials: seq<Trial>, trial: Trial)
    requires |p| >= 1 && IsSquare(p, |p|) && maxClust >= 1 && |trials| < |draws|
    requires AllOutcomes(p, maxClust, c, nScans, draws, trials)
    requires TrialOutcome(p, maxClust, c, nScans, draws[|trials|], trial)
    ensures AllOutcomes(p, maxClust, c, nScans, draws, trials + [trial])
  {
    forall it | 0 <= it < |trials| + 1
      ensures OutcomeAt(p, maxClust, c, nScans, draws, trials + [trial], it)
    {
      if it < |trials| {
        assert OutcomeAt(p, maxClust, c, nScans, draws, trials, it);
        assert (trials + [trial])[it] == trials[it];
      }
    }
  }

  /**
   * The recorded trial's labels, with the ordering undone, are below
   * min(maxClust, N), and its loss on them is minus their Binder affinity
   * plus the uncovered term.
   */
  lemma RecordedFacts(p: Matrix, maxClust: nat, c: real, nScans: nat, draws: seq<nat>, trial: Trial, labels: seq<nat>)
    requires |p| >= 1 && IsSquare(p, |p|) && maxClust >= 1
    requires TrialOutcome(p, maxClust, c, nScans, draws, trial)
    requires Relabels(labels, trial.order, trial.labels)
    ensures IsPermutation(trial.order, |p|)
    ensures trial.loss == Infinite <==> nScans == 0
    ensures forall i :: 0 <= i < |p| ==> labels[i] < Min(maxClust, |p|)
    ensures trial.loss.Finite? && EveryCandidateScored(maxClust, |p|) && IsSymmetric(p) ==>
      trial.loss.value == UncoveredTerm(p, trial.order, c) - BinderAffinity(p, labels, c)
  {
    var n := |p|;
    TrialOutcomeFacts(p, maxClust, c, nScans, draws, trial);
    PermutationFacts(trial.order, n);
    forall i | 0 <= i < n
      ensures labels[i] < Min(maxClust, n)
    {
      assert i in trial.order;
      var k :| 0 <= k < n && trial.order[k] == i;
    }
    if trial.loss.Finite? && EveryCandidateScored(maxClust, n) && IsSymmetric(p) {
      TrialLossOnItems(p, maxClust, c, nScans, draws, trial, labels);
    }
  }
}
